=== FILE: README.md ===
# crypto-table: a Dafny model of the portfolio and market-table logic

This project models the client-side logic of a React crypto dashboard with two
generations of components. It covers five areas:

- **Portfolio.** Holdings are kept as coins with purchase lots. Value,
  profit/loss and cost basis are computed from them. The modal and the header
  add and remove units, and the portfolio block saves and loads the list.
- **WebSocket manager.** One shared socket fans price ticks out to the
  registered handlers. It makes at most five consecutive reconnect attempts
  without an open in between.
- **Market table.** The screen filters and sorts the table, pages through it
  with offset/limit, and applies live ticks to the rows and the coin page.
- **Pager.** Its page count, current page, button states and requested
  offsets, including the page number the newer pager writes into the URL.
- **JavaScript built-ins.** The ones the code relies on are restated exactly:
  `Array.prototype.slice` with negative and out-of-range indices, truthiness
  of strings, the `x || default` idiom, `String.prototype.includes` and ASCII
  `toLowerCase`.

Prices are `real` and amounts are `int`. `parseFloat` on a price string is a
parameter `num: string -> real`. A saved field that may be missing or
non-numeric is an `Option`. React state setters become pure functions from
the old state to the new one. Socket events, timers and clicks become inputs.

Modules, one per source unit:

- `Js` and `Seqs`: the built-ins, plus map/filter/`filter(Boolean)`
  pipelines and subsequences.
- `Sorting`: the stable sort JavaScript guarantees.
- `Portfolio`: the coin record and its sums.
- `HeaderFunction`: `src/utils/headerFunction.ts`.
- `WebSocketManager`: `src/components/websocketManager.ts`.
- `Header` and `LegacyHeader`: `src/components/Header/Header.tsx` and
  `src/components/Header.tsx`.
- `PortfolioModal` and `LegacyModal`: `src/components/Portfolio/PortfolioModal.tsx`
  and `src/components/PortfolioModal.tsx`.
- `PortfolioBlock` and `LegacyPortfolioBlock`: `src/components/Portfolio/PortfolioBlock.tsx`
  and `src/components/PortfolioBlock.tsx`.
- `CoinTable`: `src/utils/coinTableFunction.ts`.
- `CoinPage`: `src/utils/coinPageFunction.ts`.
- `App`: `src/App.tsx`.
- `Pagination`: both `Pagination.tsx` files.

## Model

| member | source | states |
|---|---|---|
| Js.Slice | src/components/Header/Header.tsx:105 | `slice(start, end)` returns a contiguous block of the array. For in-range indices it is exactly `s[start..end]`, and it never holds more than `end - start` elements. |
| Js.SliceIndex | src/components/Header/Header.tsx:105 | A negative slice index counts from the end. The result is clamped into `[0, len]`. |
| Js.SliceDropLast | src/components/Header/Header.tsx:105 | `slice(0, -n)` drops the last n lots, or all of them when there are fewer than n. `slice(0, -0)` is empty. |
| Js.SliceUndoesPush | src/components/Portfolio/PortfolioModal.tsx:72-75 | Dropping the last element undoes appending one. This is why a decrement undoes an increment on the lots. |
| Js.ToLower | src/utils/coinTableFunction.ts:59 | Lower-casing keeps the length, maps each character on its own, and leaves no upper-case ASCII letter. |
| Js.LowerChar | src/utils/coinTableFunction.ts:59 | A–Z move to a–z (a shift of 32). Every other character is left unchanged. |
| Js.IncludesEmpty | src/App.tsx:25-29 | Every string includes the empty search, so an empty search box matches every coin. |
| Seqs.Map | src/utils/headerFunction.ts:88-94 | `map` keeps the length and applies the function at every index. |
| Seqs.Filter | src/components/Portfolio/PortfolioBlock.tsx:62 | `filter` returns only elements that pass the test, every passing element is present, and the result is an order-preserving subsequence of the input. |
| Seqs.FilterCounts | src/components/websocketManager.ts:66 | `filter` keeps every occurrence of an element that passes the test and none of one that fails it. |
| Seqs.MapPartial | src/components/Portfolio/PortfolioBlock.tsx:54-62 | `map` to a value or null, then dropping the nulls: every result comes from some input. |
| Seqs.SliceIsSubsequence | src/utils/coinTableFunction.ts:61 | A slice is a subsequence of its input. |
| Seqs.FilterMapCommute | src/utils/coinTableFunction.ts:58-71 | Filtering after a map equals mapping after the filter when the map does not change the filter's answer. |
| Seqs.SliceMap | src/utils/coinTableFunction.ts:61-71 | Slicing commutes with `map`. |
| Seqs.MapPartialKeepsOthers | src/components/Portfolio/PortfolioBlock.tsx:54-62 | A map-then-drop step that leaves other ids alone keeps the sublist of other ids unchanged. |
| Seqs.MapPartialUndoesMap | src/components/Portfolio/PortfolioModal.tsx:65-109 | A map-then-drop step that inverts a map restores the original list. |
| Sorting.Sort | src/utils/coinTableFunction.ts:32-49 | `[...coins].sort(cmp)` returns a permutation of its input, ordered by the comparator's rank. |
| Sorting.SortedIsFixed | src/utils/coinTableFunction.ts:32-49 | Sorting an already sorted list returns it unchanged (the sort is stable). |
| Sorting.ConstantRankKeepsOrder | src/App.tsx:51 | A comparator that always answers 0 leaves the order as it was. |
| Portfolio.PercentageChange | src/utils/headerFunction.ts:49-55 | The percentage is 0 for a zero cost basis. Otherwise it is `diff / initialValue * 100`. |
| Portfolio.PositiveBasisPercentage | src/components/Header.tsx:57 | The percentage is 0 unless the cost basis is positive. Otherwise it is `diff / initialValue * 100`. |
| Portfolio.PercentageGuardsDiffer | src/utils/headerFunction.ts:53 | The `=== 0` guard and the `> 0` guard agree for a non-negative basis. They differ for a negative basis and a non-zero difference. |
| Portfolio.GainIsMarkedMinusCost | src/utils/headerFunction.ts:26-30 | A coin's summed per-lot gain is the price times the units in its lots, minus their cost. |
| Portfolio.DifferenceIsMarkedMinusInitial | src/utils/headerFunction.ts:20-47 | The total difference is the lots' value at today's prices minus the initial value. |
| Portfolio.ConsistentDifference | src/utils/headerFunction.ts:13-47 | When every amount equals the units in that coin's lots, the difference is the total value minus the initial value. |
| Portfolio.MarkedIsValue | src/utils/headerFunction.ts:13-18 | When every amount equals its lots' units, valuing the lots equals valuing the amounts. |
| Portfolio.ValueAppend | src/utils/headerFunction.ts:13-18 | The total value is additive over concatenation. |
| Portfolio.InitialValueAppend | src/utils/headerFunction.ts:36-47 | The initial value is additive over concatenation. |
| Portfolio.DifferenceAppend | src/utils/headerFunction.ts:20-34 | The difference is additive over concatenation. |
| Portfolio.CostAppend | src/utils/headerFunction.ts:40-44 | The cost of lots is additive over concatenation. |
| Portfolio.UnitsAppend | src/components/Header.tsx:101-107 | The units in lots are additive over concatenation. |
| Portfolio.UnitLotsUnits | src/components/Header/Header.tsx:71-74 | Lots of one unit each hold as many units as there are lots. |
| HeaderFunction.CalculateTotalValue | src/utils/headerFunction.ts:13-18 | The loop returns the sum of price × amount over the portfolio. |
| HeaderFunction.LotsDifference | src/utils/headerFunction.ts:26-30 | The inner loop returns the sum of (price − purchase price) × lot amount. |
| HeaderFunction.CalculateDifference | src/utils/headerFunction.ts:20-34 | The loop returns the summed per-coin difference. A coin without lots contributes 0. |
| HeaderFunction.LotsCost | src/utils/headerFunction.ts:40-44 | The inner loop returns the sum of purchase price × lot amount. |
| HeaderFunction.CalculateInitialValue | src/utils/headerFunction.ts:36-47 | The loop returns the summed cost of all lots. |
| HeaderFunction.Summary | src/components/Header/Header.tsx:40-49 | The header's figures are total value, difference and percentage. The difference is value minus cost basis when amounts match lots. The percentage is 0 for a zero basis and `diff / initialValue * 100` otherwise. |
| HeaderFunction.TickList | src/utils/headerFunction.ts:86-105 | A tick replaces the price of each coin with a truthy entry by the parsed entry. Every other field and every other coin is unchanged. |
| HeaderFunction.TickKeepsCostBasis | src/utils/headerFunction.ts:86-95 | A tick never changes the initial value. An empty tick changes nothing. |
| HeaderFunction.TickRevaluesHoldings | src/utils/headerFunction.ts:86-95 | When every held coin is quoted, the value after a tick is the holdings priced at the quoted prices. |
| HeaderFunction.MountThenCleanup | src/utils/headerFunction.ts:108-113 | Mounting and then cleaning up restores the handler list. While mounted, the handler receives each message exactly once. The table's and the coin page's `useWebSocket` (`src/utils/coinTableFunction.ts` lines 75-80, `src/utils/coinPageFunction.ts` lines 78-83) use the same lifecycle. |
| WebSocketManager.Connect | src/components/websocketManager.ts:12-15 | `connect` is a no-op while a socket is held. Otherwise it creates a connecting socket and touches nothing else. |
| WebSocketManager.ConnectIdempotent | src/components/websocketManager.ts:13 | Connecting twice is the same as connecting once. |
| WebSocketManager.Reconnect | src/components/websocketManager.ts:41-48 | Below 5 attempts, a reconnect counts one more attempt and schedules one timer. At 5 it gives up and changes nothing. The count never passes 5. |
| WebSocketManager.Disconnect | src/components/websocketManager.ts:50-55 | After `disconnect` no socket is held and the manager is not connected. Handlers and the attempt count stay. |
| WebSocketManager.AddMessageHandler | src/components/websocketManager.ts:61-63 | The handler is appended after the existing ones. |
| WebSocketManager.RemoveMessageHandler | src/components/websocketManager.ts:65-67 | Every registration of the handler is gone. The rest keep their order and each stays registered as often as before. Removing an absent handler changes nothing. |
| WebSocketManager.RemoveIdempotent | src/components/websocketManager.ts:65-67 | Removing a handler twice is the same as removing it once. |
| WebSocketManager.NothingToRemove | src/components/websocketManager.ts:66 | Filtering out a handler that is not registered keeps the list. |
| WebSocketManager.Dispatch | src/components/websocketManager.ts:21-28 | A parsed message goes to every handler in registration order. A message that fails to parse goes to none. |
| WebSocketManager.Step | src/components/websocketManager.ts:12-67 | `onopen` resets the attempt count to 0 and opens the held socket. `onclose` drops the socket and, below 5 attempts, counts one more attempt and schedules one timer; at 5 it schedules nothing. A pending timer firing connects and uses up that timer; with none pending nothing happens. Messages and errors leave the manager unchanged. Opens, closes and timers keep the handler list. `connect` and `disconnect` touch only the socket, keeping handlers, attempts and pending timers. Adding and removing a handler keep the socket, attempts and timers. Adding appends the handler. Removing leaves no copy of it, and the handlers left keep their relative order. The attempt count stays within 5. |
| WebSocketManager.HandlersSurviveReconnects | src/components/websocketManager.ts:5-48 | The handler list belongs to the manager, not the socket. Any run of drops, reconnects, opens, errors and messages without add or remove calls leaves it exactly as it was. |
| WebSocketManager.Run | src/components/websocketManager.ts:17-48 | Any sequence of socket events keeps the attempt count within 5. |
| WebSocketManager.CloseAlwaysReconnects | src/components/websocketManager.ts:34-38 | A close after an explicit `disconnect` reconnects just like a dropped connection, while attempts remain. |
| WebSocketManager.ReconnectsBoundedWithoutOpen | src/components/websocketManager.ts:41-48 | Without an `onopen`, a run schedules at most 5 minus the attempts already made in reconnect timers. |
| WebSocketManager.Subscribe | src/utils/headerFunction.ts:108-109 | After `connect` and `addMessageHandler`, a socket is held and the handler is registered. |
| WebSocketManager.Unsubscribe | src/utils/headerFunction.ts:111-113 | After the cleanup the handler is not registered and the socket is unchanged. |
| WebSocketManager.SubscribeThenUnsubscribe | src/utils/headerFunction.ts:108-113 | The cleanup restores the handler list the effect found. |
| WebSocketManager.SubscribedHandlerReceivesOnce | src/components/websocketManager.ts:24 | A newly subscribed handler receives each message exactly once. |
| WebSocketManager.NoDeliveriesToAbsent | src/components/websocketManager.ts:24 | An unregistered handler receives nothing. |
| Header.AddCoin | src/components/Header/Header.tsx:61-93 | Adding a held coin bumps its amount and appends a one-unit lot at the coin's price, leaving the others unchanged. Adding a new coin appends the coin itself, with name and symbol kept, amount 1 and one lot at its price. The ids stay unique. |
| Header.AddHeld | src/components/Header/Header.tsx:66-78 | With unique ids, adding a held coin replaces that entry in place with the bought one. |
| Header.RemoveCoin | src/components/Header/Header.tsx:95-118 | Removal never lengthens the list and keeps the other coins in order. A surviving entry of the id has n fewer units and its last n lots dropped. With n = 0 the surviving entry's lots are emptied. |
| Header.RemoveHeld | src/components/Header/Header.tsx:97-113 | With unique ids, the removed coin is either trimmed in place or deleted, according to whether units remain. |
| Header.RemoveAllDropsCoin | src/components/Header/Header.tsx:107-108 | Removing all of a coin's units deletes it from the portfolio. |
| Header.AddThenRemoveRestores | src/components/Header/Header.tsx:61-118 | Adding one unit and removing one unit restores the portfolio. |
| Header.AddKeepsUnitLots | src/components/Header/Header.tsx:61-93 | Adding keeps every coin's amount equal to its number of one-unit lots. |
| Header.RemoveKeepsUnitLots | src/components/Header/Header.tsx:95-118 | Removing n ≥ 1 units keeps every coin's amount equal to its number of one-unit lots. |
| Header.AddRaisesCostBasis | src/components/Header/Header.tsx:61-93 | Adding one unit raises the initial value by exactly the coin's price. |
| Header.RemovePipelineFacts | src/components/Header/Header.tsx:97-113 | Removing an id that is not held changes nothing. Coins of other ids are kept in order. |
| PortfolioModal.First | src/components/Portfolio/PortfolioModal.tsx:66 | `find` returns nothing exactly when the id is absent. Otherwise it returns the first coin with that id. |
| PortfolioModal.Increment | src/components/Portfolio/PortfolioModal.tsx:65-83 | Each entry of the id gains a unit and a lot at the first such coin's price, and the owner is told to add that coin. Nothing happens for an absent id. |
| PortfolioModal.Decrement | src/components/Portfolio/PortfolioModal.tsx:85-109 | With a held id and a positive amount, the owner is told to remove one unit and the other coins are kept. Otherwise nothing happens. |
| PortfolioModal.IncrementKeepsOwnerInSync | src/components/Portfolio/PortfolioModal.tsx:65-83 | The modal's new local list equals what the header makes of the `onAddCoin` call. |
| PortfolioModal.DecrementKeepsOwnerInSync | src/components/Portfolio/PortfolioModal.tsx:85-109 | The modal's new local list equals what the header makes of the `onRemoveCoin(id, 1)` call. |
| PortfolioModal.DecrementHeld | src/components/Portfolio/PortfolioModal.tsx:88-104 | With unique ids, a decrement trims the coin in place, or deletes it at one unit. |
| PortfolioModal.IncrementThenDecrement | src/components/Portfolio/PortfolioModal.tsx:65-109 | `+` then `−` on a coin whose entries hold at least one unit restores the local list, whether or not ids repeat. The callbacks fired are `onAddCoin` of the found coin and `onRemoveCoin(id, 1)`. |
| PortfolioModal.ChangeAmount | src/components/Portfolio/PortfolioModal.tsx:38-46 | A typed non-negative integer is stored for the id. A NaN or negative value changes nothing. Other ids are untouched, and amounts stay non-negative. |
| PortfolioModal.InitialAmountsKeys | src/components/Portfolio/PortfolioModal.tsx:29-36 | Every held id has an amount entry and every entry is held. For a repeated id, the last coin wins. |
| PortfolioModal.InitialAmountsOfUnique | src/components/Portfolio/PortfolioModal.tsx:29-36 | With unique ids, each coin's amount entry is its amount. Non-negative amounts give non-negative entries. |
| PortfolioModal.TotalPortfolioValue | src/components/Portfolio/PortfolioModal.tsx:111-114 | The loop returns the sum of amount × price. |
| PortfolioModal.TotalPriceDifference | src/components/Portfolio/PortfolioModal.tsx:116-125 | The loop returns the summed per-lot difference. It is value minus initial value when amounts match lots. |
| PortfolioModal.CoinPercentChange | src/components/Portfolio/PortfolioModal.tsx:152-157 | A coin's percentage is measured against its first lot's price. It is 0 when there is no lot or that price is not positive. |
| PortfolioModal.SinglePricePercent | src/components/Portfolio/PortfolioModal.tsx:152-157 | When every lot was bought at one price, the per-coin percentage equals the header's percentage for that coin alone. |
| LegacyModal.Increment | src/components/PortfolioModal.tsx:35-40 | The pending amount of the id becomes its old value (0 if missing) plus 1. Other ids are untouched. |
| LegacyModal.Decrement | src/components/PortfolioModal.tsx:42-47 | The pending amount drops by one but never below 0. Other ids are untouched. |
| LegacyModal.RemoveClick | src/components/PortfolioModal.tsx:181-190 | A positive pending amount is sent to the owner and reset to 0. A zero amount sends nothing. |
| LegacyModal.AmountsStayNonNegative | src/components/PortfolioModal.tsx:25-47 | No sequence of typing, `+`, `−` and Remove clicks makes a pending amount negative. |
| LegacyModal.RemoveTwiceSendsOnce | src/components/PortfolioModal.tsx:181-190 | A second Remove click right after the first sends nothing. |
| LegacyModal.Figures | src/components/PortfolioModal.tsx:49-79 | The loops return the total value and the difference. The percentage is 0 unless the basis is positive. |
| LegacyHeader.Summary | src/components/Header.tsx:17-62 | The same figures as the current header, except that the percentage guard is `initialValue > 0`. |
| LegacyHeader.FilterPurchases | src/components/Header.tsx:101-107 | Walking the lots oldest first, a lot larger than the remaining count is kept. Otherwise it is dropped and its amount subtracted. With non-negative lots, the remainder never rises and every kept lot exceeds it. |
| LegacyHeader.FilterPurchasesIsSubsequence | src/components/Header.tsx:101-107 | The kept lots are a subsequence of the lots. |
| LegacyHeader.FilterPurchasesUnits | src/components/Header.tsx:101-107 | The units dropped equal what was subtracted from the count. |
| LegacyHeader.UnitLotsDropOldest | src/components/Header.tsx:101-107 | With one-unit lots, removing k units drops the oldest k lots. |
| LegacyHeader.RemoveCoin | src/components/Header.tsx:92-116 | Removal never lengthens the list and keeps the other coins in order. |
| LegacyHeader.RemoveHeld | src/components/Header.tsx:93-112 | With unique ids, the coin is deleted when no units remain. Otherwise its lots are filtered. |
| LegacyHeader.RemoveAbsent | src/components/Header.tsx:93-112 | Removing an id that is not held changes nothing. |
| LegacyHeader.ThreadKeepsOthers | src/components/Header.tsx:93-112 | The count carried from coin to coin never disturbs coins of other ids. |
| LegacyHeader.ReducedUnitLots | src/components/Header.tsx:101-107 | With one-unit lots this version drops the oldest lots where the current header drops the newest. Both keep the same number of lots. |
| LegacyHeader.PartialLotIsKept | src/components/Header.tsx:101-107 | A lot larger than the count is kept whole, so the amounts stop matching the lots. |
| PortfolioBlock.Normalise | src/components/Portfolio/PortfolioBlock.tsx:25-31 | Load defaults: a missing or non-numeric price and amount become 0, and missing lots become `[]`. Parsed values and saved lots are kept. |
| PortfolioBlock.Load | src/components/Portfolio/PortfolioBlock.tsx:22-33 | With nothing saved the state is kept. Otherwise entry i is the normalised saved entry i. |
| PortfolioBlock.LoadAfterSave | src/components/Portfolio/PortfolioBlock.tsx:25-31 | Loading what was saved gives back the portfolio. |
| PortfolioBlock.Tick | src/components/Portfolio/PortfolioBlock.tsx:35-42 | Only prices change. A coin whose tick entry is truthy and parses to a non-zero number takes that number as its price. Every other coin is unchanged. |
| PortfolioBlock.TickTwiceIsOnce | src/components/Portfolio/PortfolioBlock.tsx:35-42 | Delivering the same tick twice acts as once. |
| PortfolioBlock.RemoveCoin | src/components/Portfolio/PortfolioBlock.tsx:53-65 | Removal never lengthens the list and keeps the other coins in order. |
| PortfolioBlock.RemoveOnlyLowersAmount | src/components/Portfolio/PortfolioBlock.tsx:56-58 | A surviving entry of the id is an original with n fewer units and the same lots. |
| PortfolioBlock.RemoveKeepsCostBasis | src/components/Portfolio/PortfolioBlock.tsx:53-65 | A partial removal lowers the amount in place but leaves the initial value unchanged. |
| PortfolioBlock.FindIndex | src/components/Portfolio/PortfolioBlock.tsx:85 | `findIndex` returns the first index with the id, or nothing when no entry has it. |
| PortfolioBlock.AddCoin | src/components/Portfolio/PortfolioBlock.tsx:77-105 | For a saved entry, it gets a one-unit lot (missing lots read as `[]`) and one more unit. Otherwise a new entry is appended. |
| PortfolioBlock.AddThenLoadIsHeaderAdd | src/components/Portfolio/PortfolioBlock.tsx:77-105 | Saving, adding and loading gives exactly the current header's `handleAddCoin` result. |
| PortfolioBlock.ModalEffect | src/components/Portfolio/PortfolioBlock.tsx:21-51 | Opening the modal connects and registers the tick handler. Closing it removes the handler. |
| PortfolioBlock.OpenThenClose | src/components/Portfolio/PortfolioBlock.tsx:44-49 | Open then close restores the handlers. While open, the block receives each tick once. |
| LegacyPortfolioBlock.Normalise | src/components/PortfolioBlock.tsx:21-26 | Load defaults only the price and amount (to 0 when missing or non-numeric, otherwise the parsed value). Lots stay as found, missing ones included. |
| LegacyPortfolioBlock.Load | src/components/PortfolioBlock.tsx:18-28 | With nothing saved the state is kept. Otherwise holding i is the normalised saved entry i. |
| LegacyPortfolioBlock.LoadsAgreeBesideLots | src/components/PortfolioBlock.tsx:21-26 | This load and the current block's load agree on ids, amounts and prices. They agree on lots once missing lots read as `[]`. |
| LegacyPortfolioBlock.Tick | src/components/PortfolioBlock.tsx:32-39 | A holding with a truthy tick entry takes the raw string as its price. Every other holding is unchanged, and no other field moves. |
| LegacyPortfolioBlock.TickTwiceIsOnce | src/components/PortfolioBlock.tsx:32-39 | A quoted holding ends up with a non-empty string price. Delivering the same tick twice acts as once. |
| LegacyPortfolioBlock.RemoveCoin | src/components/PortfolioBlock.tsx:47-56 | Removal never lengthens the list. |
| LegacyPortfolioBlock.RemoveOnlyLowersAmount | src/components/PortfolioBlock.tsx:47-56 | Other ids are kept in order. A surviving entry of the id only loses n units. An absent id changes nothing. |
| LegacyPortfolioBlock.AddCoin | src/components/PortfolioBlock.tsx:71-99 | The saved list grows by at most one, and the id's entry ends with a one-unit lot at the parsed price. The edit is the current block's add at that parsed price: a held entry gains a unit and the lot, the others are untouched, and an absent coin is appended with amount 1. |
| LegacyPortfolioBlock.AddThenLoadIsHeaderAdd | src/components/PortfolioBlock.tsx:71-99 | Adding here and loading the result gives the current header's add of the coin at `parseFloat` of its price string. |
| LegacyPortfolioBlock.SetModalOpen | src/components/PortfolioBlock.tsx:17-45 | Opening loads and opens a socket of its own. Closing closes it and keeps the holdings. |
| LegacyPortfolioBlock.OnTick | src/components/PortfolioBlock.tsx:32-39 | While the block's socket is open, a tick applies `Tick`: every quoted holding takes the string price. While it is closed the block is unchanged. |
| LegacyPortfolioBlock.OnTickTwiceIsOnce | src/components/PortfolioBlock.tsx:32-39 | The same tick delivered twice acts once. After the modal closes, no tick changes the block. |
| CoinTable.SortCoins | src/utils/coinTableFunction.ts:25-50 | With no column chosen, the input itself is returned. Otherwise the result is a permutation ordered by the parsed column, ascending or descending. |
| CoinTable.SortTwiceIsOnce | src/utils/coinTableFunction.ts:25-50 | Sorting a sorted table again changes nothing. |
| CoinTable.FilterAndPaginate | src/utils/coinTableFunction.ts:52-62 | The page holds only rows whose lower-cased name includes the lower-cased search, in table order. An empty search pages the whole table. |
| CoinTable.SliceOfFilter | src/utils/coinTableFunction.ts:58-61 | Any slice of the name-filtered rows matches the search and is a subsequence of the table. |
| CoinTable.PageIsWindow | src/utils/coinTableFunction.ts:61 | The page never exceeds `limit` rows. From a non-negative offset it is the block of matching rows starting at `offset`, cut at the end. |
| CoinTable.EmptySearchKeepsAll | src/utils/coinTableFunction.ts:58-60 | An empty search keeps every row. |
| CoinTable.MatchingIsByNameOnly | src/utils/coinTableFunction.ts:58-60 | A row of the table is kept exactly when its lower-cased name includes the lower-cased search. |
| CoinTable.Tick | src/utils/coinTableFunction.ts:66-73 | A truthy entry for a row's id replaces its price string as sent. Other rows and other fields are unchanged. |
| CoinTable.TicksCompose | src/utils/coinTableFunction.ts:66-73 | Two ticks act as one carrying the latest truthy prices. The same tick twice acts once. |
| CoinTable.TickCommutesWithPage | src/utils/coinTableFunction.ts:52-73 | Ticking the table and then paging equals paging and then ticking the page. |
| CoinPage.PageTick | src/utils/coinPageFunction.ts:66-76 | A truthy entry for the route id sets a loaded coin's price. A missing coin stays missing. Without a truthy entry nothing changes. |
| CoinPage.PageAgreesWithTable | src/utils/coinPageFunction.ts:66-76 | On its own coin the page follows a tick exactly as the table row does. Two ticks act as one with the latest prices. |
| App.FilteredCoins | src/App.tsx:22-31 | No data gives `[]`. Otherwise a coin is kept exactly when its name or symbol includes the search, in table order. An empty search keeps all. |
| App.EmptySearchMatchesAll | src/App.tsx:22-31 | An empty search keeps every coin. |
| App.NameSearchWithinScreenSearch | src/App.tsx:26-28 | Every coin the name-only table search keeps is also kept by the screen's name-or-symbol search, in the same order. |
| App.SortedCoins | src/App.tsx:33-53 | The sorted copy is a permutation of the filtered coins, ordered by the chosen column and direction. |
| App.SortedCoinsIsSortCoins | src/App.tsx:33-53 | The screen's copy equals `sortCoins`. With no column chosen it is the filtered list in its own order. |
| App.OnSortChange | src/App.tsx:90-93 | A header click selects that column and flips the direction. Nothing else changes. |
| App.TwoClicksRestoreOrder | src/App.tsx:11-15 | Two clicks restore the direction. From the initial state the first click sorts descending. |
| App.EmptyResultsMeansNoMatch | src/App.tsx:59 | "No results" shows exactly when a search is typed and no coin matches by name or symbol. |
| Pagination.FloorDiv | src/components/Pagination.tsx:21 | `Math.floor(a / b)` for a positive b is the q with q·b ≤ a < (q+1)·b. |
| Pagination.CeilDiv | src/components/Pagination.tsx:20 | `Math.ceil(a / b)` for a positive b is the q with (q−1)·b < a ≤ q·b. |
| Pagination.LegacyView | src/components/Pagination.tsx:16-44 | The pager renders nothing exactly when total or limit is not positive. The page count and current page bracket total and offset. Previous is disabled iff offset is 0, Next iff offset + limit ≥ total, and the buttons ask for offset ∓ limit. |
| Pagination.PageInRange | src/components/Pagination.tsx:20-21 | For an offset inside the list, the current page lies between 1 and the page count. |
| Pagination.EnabledNextStaysInside | src/components/Pagination.tsx:38-40 | An enabled Next asks for an offset inside the list and moves the page shown on by one. |
| Pagination.NextThenPrevious | src/components/Pagination.tsx:25-40 | Next then Previous returns to the starting offset, and from a non-negative offset Previous is then enabled. |
| Pagination.UrlPage | src/components/Pagination/Pagination.tsx:26-30 | The page written to the URL is the page that contains the new offset. |
| Pagination.View | src/components/Pagination/Pagination.tsx:19-53 | The newer pager renders exactly when the older one does, with the same controls. |
| Pagination.UrlMatchesPageShown | src/components/Pagination/Pagination.tsx:26-30 | The page written to the URL is the page shown once the new offset arrives: the current page ∓ 1. |
| Pagination.MulMonotone | src/components/Pagination.tsx:20-21 | Multiplying by a non-negative limit keeps order. The page arithmetic rests on this. |

## Left out

- Arithmetic is exact: prices are `real`, not IEEE-754 doubles. The sums are proved for exact arithmetic, and so are the identities built on them (`ValueAppend`, `ConsistentDifference`, `DifferenceIsMarkedMinusInitial` and the other additivity lemmas). The browser's rounding can make them differ in the last bits.
- NaN is not modelled. `parseFloat` is a total parameter `num`, so the `|| 0` fallbacks are modelled only where a saved field is missing or unparsable (`Option`).
- HeaderFunction.TickList: takes `parseFloat` of a truthy but non-numeric tick as `num(s)` instead of NaN, because NaN is not modelled.
- PortfolioBlock.Tick: a tick entry that parses to NaN is taken as `num(s)`. It is modelled only as "zero keeps the old price", because NaN is not modelled.
- Js.ToLower: folds only ASCII A–Z. `toLowerCase` also folds other Unicode letters, which the model has no table for.
- `priceOnPurchase` at the top level of a saved coin is parsed on load but never read. It is not modelled.
- `parseInt` truncation of a typed amount is not modelled. `ChangeAmount` receives the parse outcome as `Option<int>`.
- Amounts stored as strings, and `+=` on a missing amount (NaN) beyond "stays missing", are not modelled.
- A `JSON.parse` failure of the saved list or of a socket message is modelled only as "no data".
- WebSocketManager.Dispatch: a message payload that parses to something other than an object (`null`, a number) is not modelled, and neither is a handler that throws. In websocketManager.ts:22-27 one `try` wraps the whole `forEach`, so a throwing handler stops delivery to every handler registered after it. For example, the coin page's handler reads `updatedPrices[id]` and throws on a `null` payload. The model delivers every parsed message to every handler.
- Rendering (JSX, styles, toasts, click-outside, the router, the loading screen driven by `isLoading`) has no logic to prove and is left out.
- Network fetches (`fetchAllCoins`, `fetchCoinData`, `fetchChartData`, `fetchTopCoins`, `useCoins`) and `localStorage` I/O are left out. Their results appear as parameters.
- App's `total` comes from the market API, so it appears only as the pager's `total` parameter.
- `formatNumber`, `formatDate` and the price chart are display formatting and are left out.
- `useCoinWebSocket` and the pages' own inline sockets (`CoinPage.tsx`) are outside the modelled files. The first-generation block's socket is modelled only as the `Block.socket` flag.
- The reconnect delay (10 s) is modelled as a pending timer count, without time. Socket events are taken to come from the socket currently held.
- React's batching of state updates is not modelled. Each setter runs as one step on the state it reads.

=== FILE: app.dfy ===
/** The market table screen (`src/App.tsx`): its view state, the search over
    name and symbol, the sorted copy handed to the table, the sort-header
    toggle and the "no results" test. */
module App {
  import opened Js
  import Seqs
  import Sorting
  import opened CoinTable

  /** The screen's state. */
  datatype View = View(
    offset: int,
    limit: int,
    search: string,
    sortBy: Option<SortField>,
    sortOrder: SortOrder)

  /** The state on first render: first page of 8 rows, no search, unsorted,
      ascending. */
  function Initial(): View {
    View(0, 8, "", None, Asc)
  }

  /** The screen's search test: the lower-cased name or the lower-cased symbol
      contains the lower-cased search. */
  predicate Matches(c: TableCoin, search: string) {
    Includes(ToLower(c.name), ToLower(search)) || Includes(ToLower(c.symbol), ToLower(search))
  }

  function MatchFilter(search: string): TableCoin -> bool {
    (c: TableCoin) => Matches(c, search)
  }

  /** `filteredCoins`: nothing while there is no data, otherwise the matching
      coins in their original order. */
  function FilteredCoins(coins: Option<seq<TableCoin>>, search: string): (r: seq<TableCoin>)
    ensures coins.None? ==> r == []
    ensures forall i :: 0 <= i < |r| ==> Matches(r[i], search)
    ensures coins.Some? ==> forall j :: 0 <= j < |coins.value| ==> (coins.value[j] in r <==> Matches(coins.value[j], search))
    ensures coins.Some? ==> Seqs.IsSubsequence(r, coins.value)
    ensures coins.Some? && search == "" ==> r == coins.value
  {
    match coins
    case None => []
    case Some(list) =>
      EmptySearchMatchesAll(list);
      Seqs.Filter(list, MatchFilter(search))
  }

  /** Every name includes the empty search. */
  lemma EmptySearchMatchesAll(coins: seq<TableCoin>)
    ensures Seqs.Filter(coins, MatchFilter("")) == coins
  {
    forall i | 0 <= i < |coins| ensures MatchFilter("")(coins[i]) {
      IncludesEmpty(coins[i].name);
    }
    Seqs.FilterAll(coins, MatchFilter(""));
  }

  /** The screen's search is wider than the table helper's: every coin the
      name-only search keeps is kept here as well, in the same order. */
  lemma NameSearchWithinScreenSearch(coins: seq<TableCoin>, search: string)
    ensures Seqs.IsSubsequence(Seqs.Filter(coins, NameFilter(search)), FilteredCoins(Some(coins), search))
  {
    Seqs.FilterWeaker(coins, NameFilter(search), MatchFilter(search));
  }

  /** The comparator of `sortedCoins`: the chosen column in the chosen
      direction, and 0 for every pair when no column is chosen. */
  function ScreenRank(sortBy: Option<SortField>, order: SortOrder, num: string -> real): TableCoin -> real {
    match sortBy
    case None => (c: TableCoin) => 0.0
    case Some(field) => Rank(field, order, num)
  }

  /** `sortedCoins`: a sorted copy of the filtered coins. */
  function SortedCoins(filtered: seq<TableCoin>, sortBy: Option<SortField>, order: SortOrder, num: string -> real)
    : (r: seq<TableCoin>)
    ensures multiset(r) == multiset(filtered)
    ensures sortBy.Some? && order == Asc ==>
      forall i, j :: 0 <= i < j < |r| ==> Key(r[i], sortBy.value, num) <= Key(r[j], sortBy.value, num)
    ensures sortBy.Some? && order == Desc ==>
      forall i, j :: 0 <= i < j < |r| ==> Key(r[i], sortBy.value, num) >= Key(r[j], sortBy.value, num)
  {
    var r := Sorting.Sort(filtered, ScreenRank(sortBy, order, num));
    assert forall i, j :: 0 <= i < j < |r| ==>
      ScreenRank(sortBy, order, num)(r[i]) <= ScreenRank(sortBy, order, num)(r[j]);
    r
  }

  /** The screen always sorts a copy, even with no column chosen; the
      comparator then answers 0 and the stable sort gives back the order it
      was handed, so the screen and `sortCoins` show the same list. */
  lemma SortedCoinsIsSortCoins(filtered: seq<TableCoin>, sortBy: Option<SortField>, order: SortOrder, num: string -> real)
    ensures SortedCoins(filtered, sortBy, order, num) == SortCoins(filtered, sortBy, order, num)
    ensures sortBy.None? ==> SortedCoins(filtered, sortBy, order, num) == filtered
  {
    if sortBy.None? {
      Sorting.ConstantRankKeepsOrder(filtered, ScreenRank(sortBy, order, num));
    }
  }

  /** A click on a column header: that column becomes the sort column and
      the direction flips, whether or not the column changed. */
  function OnSortChange(v: View, field: SortField): (r: View)
    ensures r.sortBy == Some(field)
    ensures r.sortOrder != v.sortOrder
    ensures r.(sortBy := v.sortBy, sortOrder := v.sortOrder) == v
  {
    v.(sortBy := Some(field), sortOrder := if v.sortOrder == Asc then Desc else Asc)
  }

  /** Two clicks on headers restore the direction, so a click on a new column
      can come up descending. */
  lemma TwoClicksRestoreOrder(v: View, first: SortField, second: SortField)
    ensures OnSortChange(OnSortChange(v, first), second).sortOrder == v.sortOrder
    ensures OnSortChange(OnSortChange(Initial(), first), second).sortOrder == Asc
    ensures OnSortChange(Initial(), first).sortOrder == Desc
  {
  }

  /** `isEmptyResults`. */
  predicate IsEmptyResults(filtered: seq<TableCoin>, search: string) {
    |filtered| == 0 && search != ""
  }

  /** The "no results" message shows exactly when a search is typed and no
      loaded coin matches it by name or symbol. */
  lemma EmptyResultsMeansNoMatch(coins: seq<TableCoin>, search: string)
    ensures IsEmptyResults(FilteredCoins(Some(coins), search), search) <==>
            search != "" && forall j :: 0 <= j < |coins| ==> !Matches(coins[j], search)
  {
    var r := FilteredCoins(Some(coins), search);
    if |r| > 0 {
      assert r[0] in coins;
    }
  }
}

=== FILE: coin_page.dfy ===
/** The single-coin page's live price (`src/utils/coinPageFunction.ts`): the
    page holds one coin, or nothing while it loads, and follows the ticks
    for the id in its route. */
module CoinPage {
  import opened Js
  import opened WebSocketManager
  import CoinTable

  /** `handleMessage` in the page's `useWebSocket`: with a truthy entry for
      `id`, a loaded coin takes that string as its price and a missing one
      stays missing. The coin's own id is not compared with `id`. */
  function PageTick(coin: Option<CoinTable.TableCoin>, id: string, tick: Prices): (r: Option<CoinTable.TableCoin>)
    ensures !(id in tick && Truthy(tick[id])) ==> r == coin
    ensures coin.None? ==> r.None?
    ensures coin.Some? ==> r.Some? && r.value == coin.value.(priceUsd := r.value.priceUsd)
    ensures coin.Some? && id in tick && Truthy(tick[id]) ==> r.value.priceUsd == tick[id]
  {
    if id in tick && Truthy(tick[id]) then
      match coin
      case None => None
      case Some(c) => Some(c.(priceUsd := if Truthy(tick[id]) then tick[id] else c.priceUsd))
    else coin
  }

  /** On the page of the coin it shows, the page follows a tick exactly as
      that coin's row in the table does, so two ticks act as one carrying the
      latest prices. */
  lemma PageAgreesWithTable(c: CoinTable.TableCoin, first: Prices, second: Prices)
    ensures PageTick(Some(c), c.id, first) == Some(CoinTable.TickCoin(c, first))
    ensures PageTick(PageTick(Some(c), c.id, first), c.id, second) ==
            PageTick(Some(c), c.id, CoinTable.Latest(first, second))
  {
    CoinTable.TicksCompose([c], first, second);
    assert CoinTable.Tick([c], first)[0] == CoinTable.TickCoin(c, first);
    assert CoinTable.Tick(CoinTable.Tick([c], first), second)[0] ==
           CoinTable.TickCoin(CoinTable.TickCoin(c, first), second);
    assert CoinTable.Tick([c], CoinTable.Latest(first, second))[0] ==
           CoinTable.TickCoin(c, CoinTable.Latest(first, second));
  }
}

=== FILE: coin_table.dfy ===
/** The coin table's list operations (`src/utils/coinTableFunction.ts`):
    sorting by a numeric column, the case-insensitive name search with
    offset/limit paging, and the live price tick. Table coins keep every
    number as the string the market API sent; `num` stands for `parseFloat`. */
module CoinTable {
  import opened Js
  import opened WebSocketManager
  import Seqs
  import Sorting

  /** One row of the market table. */
  datatype TableCoin = TableCoin(
    id: string,
    name: string,
    symbol: string,
    priceUsd: string,
    marketCapUsd: string,
    changePercent24Hr: string)

  /** The sortable columns. */
  datatype SortField = Price | MarketCap | Change24h

  datatype SortOrder = Asc | Desc

  /** The parsed value of a row in the chosen column. */
  function Key(c: TableCoin, field: SortField, num: string -> real): real {
    match field
    case Price => num(c.priceUsd)
    case MarketCap => num(c.marketCapUsd)
    case Change24h => num(c.changePercent24Hr)
  }

  /** The comparator `key(a) - key(b)` for Asc and `key(b) - key(a)` for Desc
      is `rank(a) - rank(b)` for this rank. */
  function Rank(field: SortField, order: SortOrder, num: string -> real): TableCoin -> real {
    (c: TableCoin) => if order == Asc then Key(c, field, num) else -Key(c, field, num)
  }

  /** `sortCoins`: the input itself when no column is chosen, otherwise a
      sorted copy. */
  function SortCoins(coins: seq<TableCoin>, sortBy: Option<SortField>, order: SortOrder, num: string -> real)
    : (r: seq<TableCoin>)
    ensures sortBy.None? ==> r == coins
    ensures multiset(r) == multiset(coins)
    ensures sortBy.Some? && order == Asc ==>
      forall i, j :: 0 <= i < j < |r| ==> Key(r[i], sortBy.value, num) <= Key(r[j], sortBy.value, num)
    ensures sortBy.Some? && order == Desc ==>
      forall i, j :: 0 <= i < j < |r| ==> Key(r[i], sortBy.value, num) >= Key(r[j], sortBy.value, num)
  {
    match sortBy
    case None => coins
    case Some(field) =>
      var r := Sorting.Sort(coins, Rank(field, order, num));
      assert forall i, j :: 0 <= i < j < |r| ==> Rank(field, order, num)(r[i]) <= Rank(field, order, num)(r[j]);
      r
  }

  /** Sorting an already sorted table changes nothing. */
  lemma SortTwiceIsOnce(coins: seq<TableCoin>, sortBy: Option<SortField>, order: SortOrder, num: string -> real)
    ensures SortCoins(SortCoins(coins, sortBy, order, num), sortBy, order, num) == SortCoins(coins, sortBy, order, num)
  {
    if sortBy.Some? {
      var rank := Rank(sortBy.value, order, num);
      Sorting.SortedIsFixed(Sorting.Sort(coins, rank), rank);
    }
  }

  /** The search test: the lower-cased name contains the lower-cased search.
      The symbol is not looked at. */
  predicate NameMatches(c: TableCoin, search: string) {
    Includes(ToLower(c.name), ToLower(search))
  }

  function NameFilter(search: string): TableCoin -> bool {
    (c: TableCoin) => NameMatches(c, search)
  }

  /** `filterAndPaginateCoins`: the rows whose name matches, then
      `slice(offset, offset + limit)` of those. */
  function FilterAndPaginate(coins: seq<TableCoin>, search: string, offset: int, limit: int): (r: seq<TableCoin>)
    ensures forall i :: 0 <= i < |r| ==> NameMatches(r[i], search)
    ensures Seqs.IsSubsequence(r, coins)
    ensures search == "" ==> r == Slice(coins, offset, offset + limit)
  {
    var matching := Seqs.Filter(coins, NameFilter(search));
    SliceOfFilter(coins, search, offset, offset + limit);
    EmptySearchKeepsAll(coins);
    Slice(matching, offset, offset + limit)
  }

  /** A slice of the name-filtered list holds matching rows only, in their
      original order. */
  lemma SliceOfFilter(coins: seq<TableCoin>, search: string, start: int, end: int)
    ensures forall i :: 0 <= i < |Slice(Seqs.Filter(coins, NameFilter(search)), start, end)| ==>
      NameMatches(Slice(Seqs.Filter(coins, NameFilter(search)), start, end)[i], search)
    ensures Seqs.IsSubsequence(Slice(Seqs.Filter(coins, NameFilter(search)), start, end), coins)
  {
    var keep := NameFilter(search);
    var matching := Seqs.Filter(coins, keep);
    var r := Slice(matching, start, end);
    var k :| WindowAt(matching, r, k);
    forall i | 0 <= i < |r| ensures NameMatches(r[i], search) {
      assert r[i] == matching[k + i];
      assert keep(matching[k + i]);
    }
    Seqs.SliceIsSubsequence(matching, start, end);
    Seqs.SubsequenceTransitive(r, matching, coins);
  }

  /** From a non-negative offset the page is the block of matching rows
      starting at that offset, cut short by the end of the list; it never
      holds more than `limit` rows, whatever the offset. */
  lemma PageIsWindow(coins: seq<TableCoin>, search: string, offset: int, limit: int)
    ensures 0 <= limit ==> |FilterAndPaginate(coins, search, offset, limit)| <= limit
    ensures 0 <= offset && 0 <= limit ==>
      var matching := Seqs.Filter(coins, NameFilter(search));
      var from := if offset <= |matching| then offset else |matching|;
      var to := if offset + limit <= |matching| then offset + limit else |matching|;
      FilterAndPaginate(coins, search, offset, limit) == matching[from..to]
  {
  }

  /** Every name includes the empty search. */
  lemma EmptySearchKeepsAll(coins: seq<TableCoin>)
    ensures Seqs.Filter(coins, NameFilter("")) == coins
  {
    forall i | 0 <= i < |coins| ensures NameFilter("")(coins[i]) {
      IncludesEmpty(coins[i].name);
    }
    Seqs.FilterAll(coins, NameFilter(""));
  }

  /** A row is kept exactly when its name matches; `NameMatches` never
      reads the symbol. */
  lemma MatchingIsByNameOnly(coins: seq<TableCoin>, search: string, c: TableCoin)
    requires c in coins
    ensures c in Seqs.Filter(coins, NameFilter(search)) <==> NameMatches(c, search)
  {
  }

  /** The table's tick rule for one row: a truthy entry replaces the price
      string as sent; anything else leaves the row. */
  function TickCoin(c: TableCoin, tick: Prices): TableCoin {
    if c.id in tick && Truthy(tick[c.id]) then c.(priceUsd := tick[c.id]) else c
  }

  /** `handleMessage` in the table's `useWebSocket`. */
  function Tick(coins: seq<TableCoin>, tick: Prices): (r: seq<TableCoin>)
    ensures |r| == |coins|
    ensures forall i :: 0 <= i < |coins| ==> r[i] == coins[i].(priceUsd := r[i].priceUsd)
    ensures forall i :: 0 <= i < |coins| && !(coins[i].id in tick && Truthy(tick[coins[i].id])) ==>
      r[i] == coins[i]
    ensures forall i :: 0 <= i < |coins| && coins[i].id in tick && Truthy(tick[coins[i].id]) ==>
      r[i].priceUsd == tick[coins[i].id]
  {
    Seqs.Map(coins, TickStep(tick))
  }

  function TickStep(tick: Prices): TableCoin -> TableCoin {
    (c: TableCoin) => TickCoin(c, tick)
  }

  /** The prices two ticks leave behind: the later one's truthy entries win. */
  function Latest(first: Prices, second: Prices): Prices {
    map k | k in first.Keys + second.Keys ::
      if k in second && (Truthy(second[k]) || k !in first) then second[k] else first[k]
  }

  /** Two ticks in a row act as one tick carrying the latest prices; in
      particular the same tick delivered twice acts once. */
  lemma TicksCompose(coins: seq<TableCoin>, first: Prices, second: Prices)
    ensures Tick(Tick(coins, first), second) == Tick(coins, Latest(first, second))
    ensures Tick(Tick(coins, first), first) == Tick(coins, first)
  {
    var both := Tick(Tick(coins, first), second);
    var once := Tick(coins, Latest(first, second));
    forall i | 0 <= i < |coins| ensures both[i] == once[i] {
      assert Tick(coins, first)[i] == TickCoin(coins[i], first);
    }
    var again := Tick(Tick(coins, first), first);
    forall i | 0 <= i < |coins| ensures again[i] == Tick(coins, first)[i] {
      assert Tick(coins, first)[i] == TickCoin(coins[i], first);
    }
  }

  /** A tick never moves a row in or out of the search results nor between
      pages: ticking the page shown equals showing the page of the ticked
      table. */
  lemma TickCommutesWithPage(coins: seq<TableCoin>, tick: Prices, search: string, offset: int, limit: int)
    ensures FilterAndPaginate(Tick(coins, tick), search, offset, limit) ==
            Tick(FilterAndPaginate(coins, search, offset, limit), tick)
  {
    var g, keep := TickStep(tick), NameFilter(search);
    Seqs.FilterMapCommute(coins, g, keep);
    Seqs.SliceMap(Seqs.Filter(coins, keep), g, offset, offset + limit);
    assert FilterAndPaginate(Tick(coins, tick), search, offset, limit) ==
           Slice(Seqs.Filter(Seqs.Map(coins, g), keep), offset, offset + limit);
  }
}

=== FILE: header.dfy ===
/** The header's portfolio mutations (`src/components/Header/Header.tsx`):
    buying one unit of a coin, and removing `n` units by trimming the last
    `n` lots with `slice(0, -n)`. */
module Header {
  import opened Js
  import opened Portfolio
  import Seqs

  /** A held entry after one more unit bought at `price`. */
  function Bought(c: Coin, price: real): Coin {
    c.(amount := c.amount + 1, purchases := c.purchases + [Purchase(1, price)])
  }

  /** The entry appended for a coin not yet held. */
  function Fresh(coin: Coin): Coin {
    coin.(amount := 1, purchases := [Purchase(1, coin.priceUsd)])
  }

  /** The `map` callback of the held branch. */
  function BuyIfId(id: string, price: real): Coin -> Coin {
    (c: Coin) => if c.id == id then Bought(c, price) else c
  }

  /** `handleAddCoin(coin)`. */
  function AddCoin(p: seq<Coin>, coin: Coin): (r: seq<Coin>)
    ensures Holds(r, coin.id)
    ensures |p| <= |r| <= |p| + 1
    ensures Holds(p, coin.id) ==> |r| == |p| && forall i :: 0 <= i < |p| ==>
      r[i].id == p[i].id &&
      (p[i].id != coin.id ==> r[i] == p[i]) &&
      (p[i].id == coin.id ==>
        r[i].amount == p[i].amount + 1 &&
        r[i].purchases == p[i].purchases + [Purchase(1, coin.priceUsd)] &&
        r[i].priceUsd == p[i].priceUsd && r[i].name == p[i].name && r[i].symbol == p[i].symbol)
    ensures !Holds(p, coin.id) ==>
      |r| == |p| + 1 && r[..|p|] == p &&
      r[|p|] == coin.(amount := 1, purchases := [Purchase(1, coin.priceUsd)])
    ensures UniqueIds(p) ==> UniqueIds(r)
  {
    if Holds(p, coin.id) then
      Seqs.Map(p, BuyIfId(coin.id, coin.priceUsd))
    else
      var r := p + [Fresh(coin)];
      assert r[|p|].id == coin.id;
      assert r[..|p|] == p;
      r
  }

  /** A held entry with n units removed and its last n lots dropped. */
  function Trimmed(c: Coin, n: int): Coin {
    c.(amount := c.amount - n, purchases := Slice(c.purchases, 0, -n))
  }

  /** The `map` callback of `handleRemoveCoin`: None stands for `null`. */
  function RemoveStep(id: string, n: int): Coin -> Option<Coin> {
    (c: Coin) => if c.id != id then Some(c) else if c.amount - n > 0 then Some(Trimmed(c, n)) else None
  }

  /** `handleRemoveCoin(id, n)`. */
  function RemoveCoin(p: seq<Coin>, id: string, n: int): (r: seq<Coin>)
    ensures |r| <= |p|
    ensures !Holds(p, id) ==> r == p
    ensures Seqs.Filter(r, OtherThan(id)) == Seqs.Filter(p, OtherThan(id))
    ensures forall i :: 0 <= i < |r| && r[i].id == id ==>
      exists j :: 0 <= j < |p| && p[j].id == id && p[j].amount - n > 0 && r[i] == Trimmed(p[j], n)
    ensures n == 0 ==> forall i :: 0 <= i < |r| && r[i].id == id ==> r[i].purchases == []
  {
    RemovePipelineFacts(p, id, n);
    Seqs.MapPartial(p, RemoveStep(id, n))
  }

  lemma RemovePipelineFacts(p: seq<Coin>, id: string, n: int)
    ensures !Holds(p, id) ==> Seqs.MapPartial(p, RemoveStep(id, n)) == p
    ensures Seqs.Filter(Seqs.MapPartial(p, RemoveStep(id, n)), OtherThan(id)) == Seqs.Filter(p, OtherThan(id))
  {
    var f := RemoveStep(id, n);
    if !Holds(p, id) {
      Seqs.MapPartialIdentity(p, f);
    }
    Seqs.MapPartialKeepsOthers(p, f, OtherThan(id));
  }

  /** Entries of another id pass the remove pipeline unchanged. */
  lemma RemoveSkipsOthers(s: seq<Coin>, id: string, n: int)
    requires forall i :: 0 <= i < |s| ==> s[i].id != id
    ensures Seqs.MapPartial(s, RemoveStep(id, n)) == s
  {
    Seqs.MapPartialIdentity(s, RemoveStep(id, n));
  }

  /** With unique ids, adding a held coin rewrites exactly its own entry. */
  lemma AddHeld(p: seq<Coin>, coin: Coin, k: nat)
    requires UniqueIds(p) && k < |p| && p[k].id == coin.id
    ensures AddCoin(p, coin) == p[..k] + [Bought(p[k], coin.priceUsd)] + p[k + 1..]
  {
    assert Holds(p, coin.id);
    var g := BuyIfId(coin.id, coin.priceUsd);
    var r := Seqs.Map(p, g);
    assert AddCoin(p, coin) == r;
    var e := p[..k] + [Bought(p[k], coin.priceUsd)] + p[k + 1..];
    assert |r| == |e|;
    forall i | 0 <= i < |r| ensures r[i] == e[i] {
      assert r[i] == g(p[i]);
      if i < k {
        assert p[i].id != coin.id && e[i] == p[i];
      } else if i > k {
        assert p[i].id != coin.id && e[i] == p[k + 1..][i - k - 1];
      }
    }
  }

  /** With unique ids, removing from a held coin touches only its entry:
      trimmed while units remain, dropped otherwise. */
  lemma RemoveHeld(p: seq<Coin>, id: string, n: int, k: nat)
    requires UniqueIds(p) && k < |p| && p[k].id == id
    ensures p[k].amount - n > 0 ==> RemoveCoin(p, id, n) == p[..k] + [Trimmed(p[k], n)] + p[k + 1..]
    ensures p[k].amount - n <= 0 ==> RemoveCoin(p, id, n) == p[..k] + p[k + 1..]
  {
    var a, b := p[..k], p[k + 1..];
    Seqs.SplitAt(p, k);
    assert forall i :: 0 <= i < |a| ==> a[i].id != id;
    assert forall i :: 0 <= i < |b| ==> b[i].id != id by {
      forall i | 0 <= i < |b| ensures b[i].id != id {
        assert b[i] == p[k + 1 + i];
      }
    }
    RemoveSplice(a, p[k], b, id, n);
  }

  lemma RemoveSplice(a: seq<Coin>, x: Coin, b: seq<Coin>, id: string, n: int)
    requires x.id == id
    requires forall i :: 0 <= i < |a| ==> a[i].id != id
    requires forall i :: 0 <= i < |b| ==> b[i].id != id
    ensures x.amount - n > 0 ==> Seqs.MapPartial(a + [x] + b, RemoveStep(id, n)) == a + [Trimmed(x, n)] + b
    ensures x.amount - n <= 0 ==> Seqs.MapPartial(a + [x] + b, RemoveStep(id, n)) == a + b
  {
    var f := RemoveStep(id, n);
    Seqs.MapPartialSplice(a, x, b, f);
    RemoveSkipsOthers(a, id, n);
    RemoveSkipsOthers(b, id, n);
  }

  /** With unique ids, removing all units of a coin leaves it no entry. */
  lemma RemoveAllDropsCoin(p: seq<Coin>, id: string, n: int, k: nat)
    requires UniqueIds(p) && k < |p| && p[k].id == id && p[k].amount - n <= 0
    ensures !Holds(RemoveCoin(p, id, n), id)
  {
    RemoveHeld(p, id, n, k);
    var r := RemoveCoin(p, id, n);
    forall i | 0 <= i < |r| ensures r[i].id != id {
      if i < k { assert r[i] == p[i]; } else { assert r[i] == p[i + 1]; }
    }
  }

  /** Buying one unit and then removing one unit restores the portfolio,
      whether the coin was held (with at least one unit) or not. */
  lemma AddThenRemoveRestores(p: seq<Coin>, coin: Coin)
    requires forall i :: 0 <= i < |p| && p[i].id == coin.id ==> p[i].amount >= 1
    ensures RemoveCoin(AddCoin(p, coin), coin.id, 1) == p
  {
    var f := RemoveStep(coin.id, 1);
    if Holds(p, coin.id) {
      var g := BuyIfId(coin.id, coin.priceUsd);
      forall i | 0 <= i < |p| ensures f(g(p[i])) == Some(p[i]) {
        if p[i].id == coin.id {
          SliceUndoesPush(p[i].purchases, Purchase(1, coin.priceUsd));
        }
      }
      Seqs.MapPartialUndoesMap(p, g, f);
    } else {
      Seqs.MapPartialAppend(p, [Fresh(coin)], f);
      Seqs.MapPartialIdentity(p, f);
    }
  }

  /** Buying keeps every entry in single-unit lots counted by its amount. */
  lemma AddKeepsUnitLots(p: seq<Coin>, coin: Coin)
    requires forall i :: 0 <= i < |p| ==> UnitLots(p[i])
    ensures forall i :: 0 <= i < |AddCoin(p, coin)| ==> UnitLots(AddCoin(p, coin)[i])
  {
    var r := AddCoin(p, coin);
    forall i | 0 <= i < |r| ensures UnitLots(r[i]) {
      if i < |p| {
        assert UnitLots(p[i]);
        if p[i].id == coin.id && Holds(p, coin.id) {
          assert r[i].purchases == p[i].purchases + [Purchase(1, coin.priceUsd)];
        }
      }
    }
  }

  /** Removing at least one unit keeps that shape too: the lots left are as
      many as the units left. */
  lemma RemoveKeepsUnitLots(p: seq<Coin>, id: string, n: int)
    requires n >= 1
    requires forall i :: 0 <= i < |p| ==> UnitLots(p[i])
    ensures forall i :: 0 <= i < |RemoveCoin(p, id, n)| ==> UnitLots(RemoveCoin(p, id, n)[i])
  {
    var r := RemoveCoin(p, id, n);
    forall i | 0 <= i < |r| ensures UnitLots(r[i]) {
      if r[i].id == id {
        var j :| 0 <= j < |p| && p[j].id == id && p[j].amount - n > 0 && r[i] == Trimmed(p[j], n);
        assert UnitLots(p[j]);
        SliceDropLast(p[j].purchases, n);
        assert r[i].purchases == p[j].purchases[..|p[j].purchases| - n];
      } else {
        assert r[i] in Seqs.Filter(r, OtherThan(id));
        assert r[i] in Seqs.Filter(p, OtherThan(id));
      }
    }
  }

  lemma InitialValueSplice(a: seq<Coin>, x: Coin, b: seq<Coin>)
    ensures InitialValue(a + [x] + b) == InitialValue(a) + Cost(x.purchases) + InitialValue(b)
  {
    InitialValueAppend(a + [x], b);
    InitialValueAppend(a, [x]);
    assert [x][..0] == [];
  }

  /** Buying one unit adds that unit's price to the cost basis. */
  lemma AddRaisesCostBasis(p: seq<Coin>, coin: Coin)
    requires UniqueIds(p)
    ensures InitialValue(AddCoin(p, coin)) == InitialValue(p) + coin.priceUsd
  {
    if Holds(p, coin.id) {
      var k :| 0 <= k < |p| && p[k].id == coin.id;
      AddHeldCost(p, coin, k);
    } else {
      AddFreshCost(p, coin);
    }
  }

  lemma AddHeldCost(p: seq<Coin>, coin: Coin, k: nat)
    requires UniqueIds(p) && k < |p| && p[k].id == coin.id
    ensures InitialValue(AddCoin(p, coin)) == InitialValue(p) + coin.priceUsd
  {
    AddHeld(p, coin, k);
    BoughtAtCost(p, k, coin.priceUsd);
  }

  /** One more lot bought at price for the entry at k raises the cost basis
      by that price. */
  lemma BoughtAtCost(p: seq<Coin>, k: nat, price: real)
    requires k < |p|
    ensures InitialValue(p[..k] + [Bought(p[k], price)] + p[k + 1..]) == InitialValue(p) + price
  {
    Seqs.SplitAt(p, k);
    BoughtSpliceCost(p[..k], p[k], p[k + 1..], price);
  }

  lemma AddFreshCost(p: seq<Coin>, coin: Coin)
    requires !Holds(p, coin.id)
    ensures InitialValue(AddCoin(p, coin)) == InitialValue(p) + coin.priceUsd
  {
    assert AddCoin(p, coin) == p + [Fresh(coin)];
    InitialValueAppend(p, [Fresh(coin)]);
    assert [Fresh(coin)][..0] == [];
    assert [Purchase(1, coin.priceUsd)][..0] == [];
    assert Cost(Fresh(coin).purchases) == coin.priceUsd;
  }

  lemma BoughtSpliceCost(a: seq<Coin>, x: Coin, b: seq<Coin>, price: real)
    ensures InitialValue(a + [Bought(x, price)] + b) == InitialValue(a + [x] + b) + price
  {
    InitialValueSplice(a, x, b);
    InitialValueSplice(a, Bought(x, price), b);
    CostAppend(x.purchases, [Purchase(1, price)]);
    assert [Purchase(1, price)][..0] == [];
  }
}

=== FILE: header_function.dfy ===
/** The header's aggregations and its live-price subscription: the three
    `reduce` loops over the portfolio, the percentage, and the tick handler
    applied to both the portfolio and the top-coins strip. */
module HeaderFunction {
  import opened Js
  import opened Portfolio
  import opened WebSocketManager
  import Seqs

  /** `calculateTotalValue`. */
  method CalculateTotalValue(p: seq<Coin>) returns (total: real)
    ensures total == Value(p)
  {
    total := 0.0;
    var i := 0;
    while i < |p|
      invariant 0 <= i <= |p|
      invariant total == Value(p[..i])
    {
      assert p[..i + 1][..i] == p[..i];
      total := total + p[i].priceUsd * p[i].amount as real;
      i := i + 1;
    }
    assert p[..|p|] == p;
  }

  /** The inner `reduce` of `calculateDifference` over one coin's lots. */
  method LotsDifference(price: real, ps: seq<Purchase>) returns (diff: real)
    ensures diff == Gain(price, ps)
  {
    diff := 0.0;
    var k := 0;
    while k < |ps|
      invariant 0 <= k <= |ps|
      invariant diff == Gain(price, ps[..k])
    {
      assert ps[..k + 1][..k] == ps[..k];
      diff := diff + (price - ps[k].priceOnPurchase) * ps[k].amount as real;
      k := k + 1;
    }
    assert ps[..|ps|] == ps;
  }

  /** `calculateDifference`: coins without lots are skipped. */
  method CalculateDifference(p: seq<Coin>) returns (totalDiff: real)
    ensures totalDiff == Difference(p)
  {
    totalDiff := 0.0;
    var i := 0;
    while i < |p|
      invariant 0 <= i <= |p|
      invariant totalDiff == Difference(p[..i])
    {
      assert p[..i + 1][..i] == p[..i];
      if |p[i].purchases| != 0 {
        var coinDifference := LotsDifference(p[i].priceUsd, p[i].purchases);
        totalDiff := totalDiff + coinDifference;
      }
      i := i + 1;
    }
    assert p[..|p|] == p;
  }

  /** The inner `reduce` of `calculateInitialValue` over one coin's lots. */
  method LotsCost(ps: seq<Purchase>) returns (subTotal: real)
    ensures subTotal == Cost(ps)
  {
    subTotal := 0.0;
    var k := 0;
    while k < |ps|
      invariant 0 <= k <= |ps|
      invariant subTotal == Cost(ps[..k])
    {
      assert ps[..k + 1][..k] == ps[..k];
      subTotal := subTotal + ps[k].priceOnPurchase * ps[k].amount as real;
      k := k + 1;
    }
    assert ps[..|ps|] == ps;
  }

  /** `calculateInitialValue`. */
  method CalculateInitialValue(p: seq<Coin>) returns (total: real)
    ensures total == InitialValue(p)
  {
    total := 0.0;
    var i := 0;
    while i < |p|
      invariant 0 <= i <= |p|
      invariant total == InitialValue(p[..i])
    {
      assert p[..i + 1][..i] == p[..i];
      var subTotal := LotsCost(p[i].purchases);
      total := total + subTotal;
      i := i + 1;
    }
    assert p[..|p|] == p;
  }

  /** The figures the header shows for a portfolio, computed as its effect
      does: total, difference, and the percentage over the cost basis. */
  method Summary(p: seq<Coin>) returns (total: real, diff: real, percent: real)
    ensures total == Value(p)
    ensures diff == MarkedValue(p) - InitialValue(p)
    ensures Consistent(p) ==> diff == total - InitialValue(p)
    ensures InitialValue(p) == 0.0 ==> percent == 0.0
    ensures InitialValue(p) != 0.0 ==> percent * InitialValue(p) == diff * 100.0
  {
    total := CalculateTotalValue(p);
    diff := CalculateDifference(p);
    var initialValue := CalculateInitialValue(p);
    percent := PercentageChange(diff, initialValue);
    DifferenceIsMarkedMinusInitial(p);
    if Consistent(p) {
      ConsistentDifference(p);
    }
  }

  /** The tick handler's rule for one coin: a truthy entry for its id
      replaces the price with the parsed tick; anything else leaves the coin. */
  function TickCoin(c: Coin, tick: Prices, num: string -> real): Coin {
    if c.id in tick && Truthy(tick[c.id]) then c.(priceUsd := num(tick[c.id])) else c
  }

  /** `handleMessage` inside `useWebSocket`, applied alike to the portfolio
      and to the top-coins strip: only prices move. */
  function TickList(p: seq<Coin>, tick: Prices, num: string -> real): (r: seq<Coin>)
    ensures |r| == |p|
    ensures forall i :: 0 <= i < |p| ==>
      r[i].id == p[i].id && r[i].name == p[i].name && r[i].symbol == p[i].symbol &&
      r[i].amount == p[i].amount && r[i].purchases == p[i].purchases
    ensures forall i :: 0 <= i < |p| ==>
      if p[i].id in tick && Truthy(tick[p[i].id]) then r[i].priceUsd == num(tick[p[i].id]) else r[i] == p[i]
  {
    Seqs.Map(p, c => TickCoin(c, tick, num))
  }

  /** A tick never touches the cost basis, and an empty tick changes nothing. */
  lemma {:induction false} TickKeepsCostBasis(p: seq<Coin>, tick: Prices, num: string -> real)
    ensures InitialValue(TickList(p, tick, num)) == InitialValue(p)
    ensures tick == map[] ==> TickList(p, tick, num) == p
    decreases |p|
  {
    var r := TickList(p, tick, num);
    if |p| > 0 {
      var p' := p[..|p| - 1];
      TickKeepsCostBasis(p', tick, num);
      assert r[..|r| - 1] == TickList(p', tick, num);
    }
  }

  /** After a tick that quotes every held coin, the total value is the held
      amounts at the quoted prices. */
  lemma {:induction false} TickRevaluesHoldings(p: seq<Coin>, tick: Prices, num: string -> real)
    requires forall i :: 0 <= i < |p| ==> p[i].id in tick && Truthy(tick[p[i].id])
    ensures Value(TickList(p, tick, num)) == QuotedValue(p, tick, num)
    decreases |p|
  {
    var r := TickList(p, tick, num);
    if |p| > 0 {
      var p' := p[..|p| - 1];
      TickRevaluesHoldings(p', tick, num);
      assert r[..|r| - 1] == TickList(p', tick, num);
    }
  }

  /** Holdings valued at the tick's prices. */
  function QuotedValue(p: seq<Coin>, tick: Prices, num: string -> real): real
    requires forall i :: 0 <= i < |p| ==> p[i].id in tick
  {
    if |p| == 0 then 0.0
    else QuotedValue(p[..|p| - 1], tick, num) + num(tick[p[|p| - 1].id]) * p[|p| - 1].amount as real
  }

  /** The hook's effect registers one handler on mount and removes it on
      cleanup; with a fresh handler the manager's list ends as it began, and
      while mounted the handler sees each parsed tick once. */
  lemma MountThenCleanup(m: Manager, h: Handler, d: Prices)
    requires h !in m.handlers
    ensures Unsubscribe(Subscribe(m, h), h).handlers == m.handlers
    ensures DeliveriesTo(Dispatch(Subscribe(m, h), Some(d)), h) == 1
  {
    SubscribeThenUnsubscribe(m, h);
    SubscribedHandlerReceivesOnce(m, h, d);
  }
}

=== FILE: js.dfy ===
/** JavaScript built-ins the dashboard relies on, restated over Dafny values:
    optional values, truthiness of strings, `Array.prototype.slice`,
    ASCII `toLowerCase` and `String.prototype.includes`. */
module Js {

  /** A value that may be absent (`undefined`, `null`, or NaN after a parse). */
  datatype Option<+T> = None | Some(value: T) {
    /** The `x || default` idiom on a value that is either absent or usable. */
    function GetOr(default: T): T {
      match this
      case Some(v) => v
      case None => default
    }
  }

  /** A string is truthy in JavaScript exactly when it is non-empty. */
  predicate Truthy(s: string) {
    |s| > 0
  }

  /** Normalises a `slice` argument: a negative index counts from the end,
      and the result is clamped into [0, len]. */
  function SliceIndex(i: int, len: nat): (r: nat)
    ensures r <= len
    ensures 0 <= i <= len ==> r == i
    ensures i < 0 && len + i >= 0 ==> r == len + i
    ensures len + i < 0 ==> r == 0
    ensures len < i ==> r == len
  {
    if i < 0 then (if len + i < 0 then 0 else len + i)
    else if i > len then len
    else i
  }

  /** `s.slice(start, end)`. */
  function Slice<T>(s: seq<T>, start: int, end: int): (r: seq<T>)
    ensures |r| <= |s|
    ensures exists k :: WindowAt(s, r, k)
    ensures 0 <= start <= end <= |s| ==> r == s[start..end]
    ensures 0 <= start <= end ==> |r| <= end - start
  {
    var from := SliceIndex(start, |s|);
    var to := SliceIndex(end, |s|);
    if to <= from then
      assert WindowAt(s, [], 0);
      []
    else
      assert WindowAt(s, s[from..to], from);
      s[from..to]
  }

  /** w is the contiguous block of s that starts at index k. */
  ghost predicate WindowAt<T>(s: seq<T>, w: seq<T>, k: int) {
    0 <= k <= |s| - |w| && w == s[k..k + |w|]
  }

  /** `s.slice(0, -n)` for a positive n drops the last n elements (all of them
      when there are fewer), while `s.slice(0, -0)` is `s.slice(0, 0)`, which is empty. */
  lemma SliceDropLast<T>(s: seq<T>, n: int)
    ensures n > 0 && n <= |s| ==> Slice(s, 0, -n) == s[..|s| - n]
    ensures n > 0 && n > |s| ==> Slice(s, 0, -n) == []
    ensures n == 0 ==> Slice(s, 0, -n) == []
    ensures n > 0 ==> |Slice(s, 0, -n)| == if n <= |s| then |s| - n else 0
  {
  }

  /** Appending one element and slicing off the last one restores the sequence. */
  lemma SliceUndoesPush<T>(s: seq<T>, x: T)
    ensures Slice(s + [x], 0, -1) == s
  {
    assert (s + [x])[..|s|] == s;
  }

  /** ASCII case folding of one character, as `toLowerCase` does for A-Z. */
  function LowerChar(c: char): (r: char)
    ensures 'A' <= c <= 'Z' ==> 'a' <= r <= 'z' && r as int - c as int == 32
    ensures !('A' <= c <= 'Z') ==> r == c
  {
    if 'A' <= c <= 'Z' then (c as int + 32) as char else c
  }

  /** `s.toLowerCase()`, restricted to ASCII letters. */
  function ToLower(s: string): (r: string)
    ensures |r| == |s|
    ensures forall i :: 0 <= i < |s| ==> r[i] == LowerChar(s[i])
    ensures forall i :: 0 <= i < |r| ==> !('A' <= r[i] <= 'Z')
  {
    seq(|s|, i requires 0 <= i < |s| => LowerChar(s[i]))
  }

  /** `s.includes(sub)`: sub occurs in s as a contiguous block. */
  predicate Includes(s: string, sub: string) {
    exists i | 0 <= i <= |s| - |sub| :: OccursAt(s, sub, i)
  }

  /** sub occurs in s starting at index i. */
  predicate OccursAt(s: string, sub: string, i: int) {
    0 <= i <= |s| - |sub| && s[i..i + |sub|] == sub
  }

  /** Every string includes the empty string, so an empty search matches everything. */
  lemma IncludesEmpty(s: string)
    ensures Includes(s, "")
    ensures Includes(ToLower(s), ToLower(""))
  {
    assert OccursAt(s, "", 0);
    assert OccursAt(ToLower(s), ToLower(""), 0);
  }
}

=== FILE: legacy_header.dfy ===
/** The header of the first generation (`src/components/Header.tsx`): the
    same three sums inline with a stricter percentage guard, and a removal
    that drops whole lots from the front. Its `amountToRemove` parameter is
    decreased inside the `filter` callback, and the decreased value is what
    every later lot and every later entry with the same id sees; the model
    threads that counter explicitly. */
module LegacyHeader {
  import opened Js
  import opened Portfolio
  import Seqs
  import HeaderFunction
  import Header

  /** The header's effect: total, difference, and a percentage that is 0
      unless the cost basis is positive. */
  method Summary(p: seq<Coin>) returns (total: real, diff: real, percent: real)
    ensures total == Value(p)
    ensures diff == MarkedValue(p) - InitialValue(p)
    ensures Consistent(p) ==> diff == total - InitialValue(p)
    ensures InitialValue(p) <= 0.0 ==> percent == 0.0
    ensures InitialValue(p) > 0.0 ==> percent * InitialValue(p) == diff * 100.0
  {
    total := HeaderFunction.CalculateTotalValue(p);
    diff := HeaderFunction.CalculateDifference(p);
    var initialValue := HeaderFunction.CalculateInitialValue(p);
    percent := PositiveBasisPercentage(diff, initialValue);
    DifferenceIsMarkedMinusInitial(p);
    if Consistent(p) {
      ConsistentDifference(p);
    }
  }

  /** Every lot holds a non-negative number of units. */
  ghost predicate NonNegativeLots(ps: seq<Purchase>) {
    forall i :: 0 <= i < |ps| ==> ps[i].amount >= 0
  }

  /** The `filter` over one coin's lots with the counter at `k`: a lot larger
      than the counter is kept, any other is dropped and its units come off
      the counter. Answers the kept lots and the counter left. */
  function FilterPurchases(ps: seq<Purchase>, k: int): (r: (seq<Purchase>, int))
    ensures |r.0| <= |ps|
    ensures NonNegativeLots(ps) ==> r.1 <= k
    ensures NonNegativeLots(ps) && k >= 0 ==> 0 <= r.1
    ensures NonNegativeLots(ps) ==> forall i :: 0 <= i < |r.0| ==> r.0[i].amount > r.1
    decreases |ps|
  {
    if |ps| == 0 then ([], k)
    else
      assert NonNegativeLots(ps) ==> NonNegativeLots(ps[1..]) by {
        assert forall i :: 0 <= i < |ps| - 1 ==> ps[1..][i] == ps[i + 1];
      }
      if ps[0].amount > k then
        var rest := FilterPurchases(ps[1..], k);
        ([ps[0]] + rest.0, rest.1)
      else
        FilterPurchases(ps[1..], k - ps[0].amount)
  }

  /** The kept lots keep their order. */
  lemma {:induction false} FilterPurchasesIsSubsequence(ps: seq<Purchase>, k: int)
    ensures Seqs.IsSubsequence(FilterPurchases(ps, k).0, ps)
    decreases |ps|
  {
    if |ps| > 0 {
      if ps[0].amount > k {
        FilterPurchasesIsSubsequence(ps[1..], k);
        assert FilterPurchases(ps, k).0[1..] == FilterPurchases(ps[1..], k).0;
      } else {
        FilterPurchasesIsSubsequence(ps[1..], k - ps[0].amount);
      }
    }
  }

  /** The units dropped are exactly what came off the counter. */
  lemma {:induction false} FilterPurchasesUnits(ps: seq<Purchase>, k: int)
    ensures Units(ps) == Units(FilterPurchases(ps, k).0) + (k - FilterPurchases(ps, k).1)
    decreases |ps|
  {
    if |ps| > 0 {
      assert ps == [ps[0]] + ps[1..];
      UnitsAppend([ps[0]], ps[1..]);
      assert [ps[0]][..0] == [];
      if ps[0].amount > k {
        FilterPurchasesUnits(ps[1..], k);
        UnitsAppend([ps[0]], FilterPurchases(ps[1..], k).0);
      } else {
        FilterPurchasesUnits(ps[1..], k - ps[0].amount);
      }
    }
  }

  /** On single-unit lots, removing k of them drops the k oldest lots. */
  lemma {:induction false} UnitLotsDropOldest(ps: seq<Purchase>, k: int)
    requires forall i :: 0 <= i < |ps| ==> ps[i].amount == 1
    requires 0 <= k
    ensures k <= |ps| ==> FilterPurchases(ps, k) == (ps[k..], 0)
    ensures k > |ps| ==> FilterPurchases(ps, k) == ([], k - |ps|)
    decreases |ps|
  {
    if |ps| > 0 {
      if k == 0 {
        UnitLotsKeepAll(ps);
      } else {
        if k <= |ps| {
          assert ps[1..][k - 1..] == ps[k..];
        }
        UnitLotsDropOldest(ps[1..], k - 1);
      }
    }
  }

  /** On single-unit lots with the counter at 0, every lot is kept. */
  lemma {:induction false} UnitLotsKeepAll(ps: seq<Purchase>)
    requires forall i :: 0 <= i < |ps| ==> ps[i].amount == 1
    ensures FilterPurchases(ps, 0) == (ps, 0)
    decreases |ps|
  {
    if |ps| > 0 {
      UnitLotsKeepAll(ps[1..]);
      assert [ps[0]] + ps[1..] == ps;
    }
  }

  /** `map` with the shared counter, then `filter(Boolean)`: answers the new
      list and the counter after the last entry. */
  function Thread(p: seq<Coin>, id: string, k: int): (r: (seq<Coin>, int))
    ensures |r.0| <= |p|
    decreases |p|
  {
    if |p| == 0 then ([], k)
    else
      var c := p[0];
      if c.id != id then
        var rest := Thread(p[1..], id, k);
        ([c] + rest.0, rest.1)
      else if c.amount - k <= 0 then
        Thread(p[1..], id, k)
      else
        var f := FilterPurchases(c.purchases, k);
        var rest := Thread(p[1..], id, f.1);
        ([c.(amount := c.amount - k, purchases := f.0)] + rest.0, rest.1)
  }

  /** The entry a removal of n units leaves in place of c. */
  function Reduced(c: Coin, n: int): Coin {
    c.(amount := c.amount - n, purchases := FilterPurchases(c.purchases, n).0)
  }

  /** `handleRemoveCoin(id, amountToRemove)`. */
  function RemoveCoin(p: seq<Coin>, id: string, n: int): (r: seq<Coin>)
    ensures |r| <= |p|
    ensures Seqs.Filter(r, OtherThan(id)) == Seqs.Filter(p, OtherThan(id))
  {
    ThreadKeepsOthers(p, id, n);
    Thread(p, id, n).0
  }

  /** Entries of other ids pass unchanged and in order. */
  lemma {:induction false} ThreadKeepsOthers(p: seq<Coin>, id: string, k: int)
    ensures Seqs.Filter(Thread(p, id, k).0, OtherThan(id)) == Seqs.Filter(p, OtherThan(id))
    decreases |p|
  {
    if |p| > 0 {
      var c := p[0];
      var keep := OtherThan(id);
      if c.id != id {
        ThreadKeepsOthers(p[1..], id, k);
        assert Thread(p, id, k).0 == [c] + Thread(p[1..], id, k).0;
      } else if c.amount - k <= 0 {
        ThreadKeepsOthers(p[1..], id, k);
      } else {
        var f := FilterPurchases(c.purchases, k);
        ThreadKeepsOthers(p[1..], id, f.1);
        assert Thread(p, id, k).0 == [Reduced(c, k)] + Thread(p[1..], id, f.1).0;
        assert !keep(Reduced(c, k));
      }
    }
  }

  /** A prefix without the id passes through unchanged and leaves the counter
      alone. */
  lemma {:induction false} ThreadSkipsPrefix(a: seq<Coin>, b: seq<Coin>, id: string, k: int)
    requires forall i :: 0 <= i < |a| ==> a[i].id != id
    ensures Thread(a + b, id, k) == (a + Thread(b, id, k).0, Thread(b, id, k).1)
    decreases |a|
  {
    if |a| == 0 {
      assert a + b == b;
      assert a + Thread(b, id, k).0 == Thread(b, id, k).0;
    } else {
      assert (a + b)[1..] == a[1..] + b;
      assert (a + b)[0] == a[0];
      ThreadSkipsPrefix(a[1..], b, id, k);
      assert [a[0]] + (a[1..] + Thread(b, id, k).0) == a + Thread(b, id, k).0;
    }
  }

  /** For an absent id the removal is the identity. */
  lemma RemoveAbsent(p: seq<Coin>, id: string, n: int)
    requires !Holds(p, id)
    ensures RemoveCoin(p, id, n) == p
  {
    assert p + [] == p;
    ThreadSkipsPrefix(p, [], id, n);
  }

  /** With unique ids, only the entry of that id changes: it is dropped when
      no unit would remain, and reduced otherwise. */
  lemma RemoveHeld(p: seq<Coin>, id: string, n: int, k: nat)
    requires UniqueIds(p) && k < |p| && p[k].id == id
    ensures p[k].amount - n <= 0 ==> RemoveCoin(p, id, n) == p[..k] + p[k + 1..]
    ensures p[k].amount - n > 0 ==> RemoveCoin(p, id, n) == p[..k] + [Reduced(p[k], n)] + p[k + 1..]
  {
    var a, b := p[..k], p[k + 1..];
    assert p == a + ([p[k]] + b);
    assert forall i :: 0 <= i < |a| ==> a[i].id != id;
    assert forall i :: 0 <= i < |b| ==> b[i].id != id by {
      forall i | 0 <= i < |b| ensures b[i].id != id {
        assert b[i] == p[k + 1 + i];
      }
    }
    ThreadSplice(a, p[k], b, id, n);
  }

  /** The entry with the id between entries without it. */
  lemma ThreadSplice(a: seq<Coin>, x: Coin, b: seq<Coin>, id: string, n: int)
    requires x.id == id
    requires forall i :: 0 <= i < |a| ==> a[i].id != id
    requires forall i :: 0 <= i < |b| ==> b[i].id != id
    ensures x.amount - n <= 0 ==> Thread(a + ([x] + b), id, n).0 == a + b
    ensures x.amount - n > 0 ==> Thread(a + ([x] + b), id, n).0 == a + [Reduced(x, n)] + b
  {
    ThreadSkipsPrefix(a, [x] + b, id, n);
    ThreadAtHead(x, b, id, n);
    assert a + ([Reduced(x, n)] + b) == a + [Reduced(x, n)] + b;
  }

  /** The entry with the id at the head, followed by entries without it. */
  lemma ThreadAtHead(x: Coin, b: seq<Coin>, id: string, n: int)
    requires x.id == id
    requires forall i :: 0 <= i < |b| ==> b[i].id != id
    ensures x.amount - n <= 0 ==> Thread([x] + b, id, n).0 == b
    ensures x.amount - n > 0 ==> Thread([x] + b, id, n).0 == [Reduced(x, n)] + b
  {
    assert ([x] + b)[1..] == b;
    assert ([x] + b)[0] == x;
    assert b + [] == b;
    ThreadSkipsPrefix(b, [], id, n);
    ThreadSkipsPrefix(b, [], id, FilterPurchases(x.purchases, n).1);
  }

  /** On single-unit lots, removing n units with 1 <= n < amount keeps the
      entry in that shape: the n oldest lots are gone. The current header
      instead drops the n newest lots; both leave the same number of units
      and lots. */
  lemma ReducedUnitLots(c: Coin, n: int)
    requires UnitLots(c) && 1 <= n < c.amount
    ensures Reduced(c, n).purchases == c.purchases[n..]
    ensures UnitLots(Reduced(c, n))
    ensures Header.Trimmed(c, n).purchases == c.purchases[..|c.purchases| - n]
    ensures Reduced(c, n).amount == Header.Trimmed(c, n).amount
    ensures |Reduced(c, n).purchases| == |Header.Trimmed(c, n).purchases|
  {
    UnitLotsDropOldest(c.purchases, n);
    SliceDropLast(c.purchases, n);
  }

  /** With lots of any size the amount and the lots can part ways: an entry
      with one lot of two units, less one unit, claims one unit and still
      carries the lot of two. */
  lemma PartialLotIsKept()
    ensures var c := Coin("btc", "Bitcoin", "BTC", 100.0, 2, [Purchase(2, 50.0)]);
            Consistent([c]) && !Consistent(RemoveCoin([c], "btc", 1))
  {
    var c := Coin("btc", "Bitcoin", "BTC", 100.0, 2, [Purchase(2, 50.0)]);
    assert [Purchase(2, 50.0)][..0] == [];
    assert Units(c.purchases) == 2;
    var ps := c.purchases;
    assert ps[1..] == [];
    assert FilterPurchases(ps[1..], 1) == ([], 1);
    assert ps[0].amount > 1;
    assert [ps[0]] + FilterPurchases(ps[1..], 1).0 == ps;
    assert FilterPurchases(c.purchases, 1) == ([Purchase(2, 50.0)], 1);
    assert [c][1..] == [];
    assert RemoveCoin([c], "btc", 1) == [c.(amount := 1)];
  }
}

=== FILE: legacy_modal.dfy ===
/** The portfolio modal of the first generation (`src/components/PortfolioModal.tsx`).
    It never edits the portfolio itself: the + and - buttons only move a
    pending amount per coin, and Remove hands that amount to the owner's
    `onRemoveCoin`. */
module LegacyModal {
  import opened Js
  import opened Portfolio
  import PortfolioModal
  import HeaderFunction

  /** `prev[id] || 0`. */
  function Pending(amounts: map<string, int>, id: string): int {
    if id in amounts then amounts[id] else 0
  }

  /** `incrementAmount(id)`. */
  function Increment(amounts: map<string, int>, id: string): (r: map<string, int>)
    ensures id in r && r[id] == Pending(amounts, id) + 1
    ensures forall other :: other != id ==> (other in r <==> other in amounts)
    ensures forall other :: other != id && other in r ==> r[other] == amounts[other]
  {
    amounts[id := Pending(amounts, id) + 1]
  }

  /** `decrementAmount(id)`: one less, but never below 0. */
  function Decrement(amounts: map<string, int>, id: string): (r: map<string, int>)
    ensures id in r && r[id] >= 0
    ensures Pending(amounts, id) >= 1 ==> r[id] == Pending(amounts, id) - 1
    ensures Pending(amounts, id) <= 1 ==> r[id] == 0
    ensures forall other :: other != id ==> (other in r <==> other in amounts)
    ensures forall other :: other != id && other in r ==> r[other] == amounts[other]
  {
    var lowered := Pending(amounts, id) - 1;
    amounts[id := if lowered > 0 then lowered else 0]
  }

  /** The Remove button: the request it sends to `onRemoveCoin`, if any, and
      the pending amounts after it. */
  datatype Click = Click(request: Option<int>, amounts: map<string, int>)

  function RemoveClick(amounts: map<string, int>, id: string): (r: Click)
    ensures r.request.Some? <==> Pending(amounts, id) > 0
    ensures r.request.Some? ==> r.request.value == Pending(amounts, id) && r.amounts == amounts[id := 0]
    ensures r.request.None? ==> r.amounts == amounts
  {
    var amountToRemove := Pending(amounts, id);
    if amountToRemove > 0 then Click(Some(amountToRemove), amounts[id := 0]) else Click(None, amounts)
  }

  /** What the user can do to one coin's row. */
  datatype Action =
    | Plus(id: string)
    | Minus(id: string)
    | Typed(id: string, parsed: Option<int>)
    | Remove(id: string)

  function Apply(amounts: map<string, int>, a: Action): map<string, int> {
    match a
    case Plus(id) => Increment(amounts, id)
    case Minus(id) => Decrement(amounts, id)
    case Typed(id, parsed) => PortfolioModal.ChangeAmount(amounts, id, parsed)
    case Remove(id) => RemoveClick(amounts, id).amounts
  }

  function ApplyAll(amounts: map<string, int>, actions: seq<Action>): map<string, int>
    decreases |actions|
  {
    if |actions| == 0 then amounts else ApplyAll(Apply(amounts, actions[0]), actions[1..])
  }

  /** From any map without negative entries, no sequence of clicks and typing makes a
      pending amount negative, so every request Remove sends is positive and
      the field always shows a non-negative count. */
  lemma {:induction false} AmountsStayNonNegative(amounts: map<string, int>, actions: seq<Action>)
    requires PortfolioModal.NonNegative(amounts)
    ensures PortfolioModal.NonNegative(ApplyAll(amounts, actions))
    decreases |actions|
  {
    if |actions| > 0 {
      var next := Apply(amounts, actions[0]);
      assert PortfolioModal.NonNegative(next) by {
        forall id | id in next ensures next[id] >= 0 {
          match actions[0]
          case Plus(x) =>
            if id != x { assert next[id] == amounts[id]; }
          case Minus(x) =>
          case Typed(x, parsed) =>
          case Remove(x) =>
            if id != x { assert next[id] == amounts[id]; }
        }
      }
      AmountsStayNonNegative(next, actions[1..]);
    }
  }

  /** A Remove click followed by another on the same row sends nothing the
      second time. */
  lemma RemoveTwiceSendsOnce(amounts: map<string, int>, id: string)
    ensures RemoveClick(RemoveClick(amounts, id).amounts, id).request.None?
  {
  }

  /** The figures the modal shows: total value, difference, and the
      percentage over the cost basis with the `> 0` guard. */
  method Figures(p: seq<Coin>) returns (total: real, diff: real, percent: real)
    ensures total == Value(p)
    ensures diff == MarkedValue(p) - InitialValue(p)
    ensures InitialValue(p) <= 0.0 ==> percent == 0.0
    ensures InitialValue(p) > 0.0 ==> percent * InitialValue(p) == diff * 100.0
  {
    total := PortfolioModal.TotalPortfolioValue(p);
    diff := PortfolioModal.TotalPriceDifference(p);
    var initialPortfolioValue := HeaderFunction.CalculateInitialValue(p);
    percent := PositiveBasisPercentage(diff, initialPortfolioValue);
    DifferenceIsMarkedMinusInitial(p);
  }
}

=== FILE: legacy_portfolio_block.dfy ===
/** The portfolio block of the first generation (`src/components/PortfolioBlock.tsx`).
    It differs from the current one in three ways: loading does not default
    missing lots, a tick stores the raw price string instead of a number,
    and an added coin arrives with its price as a string. */
module LegacyPortfolioBlock {
  import opened Js
  import opened Portfolio
  import opened WebSocketManager
  import Seqs
  import PortfolioBlock
  import Header

  /** A price as held: the number produced by loading, or the string a tick
      stored. */
  datatype Price = Number(value: real) | Text(raw: string)

  /** A held coin; `purchases` may be missing, since loading does not default it. */
  datatype Holding = Holding(
    id: string,
    name: string,
    symbol: string,
    priceUsd: Price,
    amount: int,
    purchases: Option<seq<Purchase>>)

  /** The load normalisation: numbers parsed with `|| 0`, lots kept as found. */
  function Normalise(s: PortfolioBlock.SavedCoin): (h: Holding)
    ensures h.id == s.id && h.purchases == s.purchases
    ensures h.name == s.name && h.symbol == s.symbol
    ensures h.priceUsd.Number?
    ensures s.priceUsd.None? ==> h.priceUsd == Number(0.0)
    ensures s.priceUsd.Some? ==> h.priceUsd == Number(s.priceUsd.value)
    ensures s.amount.None? ==> h.amount == 0
    ensures s.amount.Some? ==> h.amount == s.amount.value
  {
    Holding(s.id, s.name, s.symbol, Number(s.priceUsd.GetOr(0.0)), s.amount.GetOr(0), s.purchases)
  }

  function Load(current: seq<Holding>, saved: Option<seq<PortfolioBlock.SavedCoin>>): (r: seq<Holding>)
    ensures saved.None? ==> r == current
    ensures saved.Some? ==> |r| == |saved.value|
    ensures saved.Some? ==> forall i :: 0 <= i < |r| ==> r[i] == Normalise(saved.value[i])
  {
    match saved
    case None => current
    case Some(list) => Seqs.Map(list, Normalise)
  }

  /** What the current block would load from the same saved list, against
      this one: the same entries, except that missing lots stay missing here. */
  lemma LoadsAgreeBesideLots(saved: seq<PortfolioBlock.SavedCoin>, current: seq<Holding>, currentNew: seq<Coin>)
    ensures var legacy := Load(current, Some(saved));
            var now := PortfolioBlock.Load(currentNew, Some(saved));
            |legacy| == |now| &&
            forall i :: 0 <= i < |now| ==>
              legacy[i].id == now[i].id && legacy[i].amount == now[i].amount &&
              legacy[i].priceUsd == Number(now[i].priceUsd) &&
              legacy[i].purchases.GetOr([]) == now[i].purchases
  {
  }

  /** The tick rule: `updatedPrices[id] || priceUsd`, storing the raw string. */
  function TickHolding(h: Holding, tick: Prices): Holding {
    if h.id in tick && Truthy(tick[h.id]) then h.(priceUsd := Text(tick[h.id])) else h
  }

  function Tick(p: seq<Holding>, tick: Prices): (r: seq<Holding>)
    ensures |r| == |p|
    ensures forall i :: 0 <= i < |p| ==>
      r[i] == p[i].(priceUsd := r[i].priceUsd) &&
      (r[i] != p[i] ==> p[i].id in tick && r[i].priceUsd == Text(tick[p[i].id]))
    ensures forall i :: 0 <= i < |p| && !(p[i].id in tick && Truthy(tick[p[i].id])) ==> r[i] == p[i]
    ensures forall i :: 0 <= i < |p| && p[i].id in tick && Truthy(tick[p[i].id]) ==>
      r[i].priceUsd == Text(tick[p[i].id])
  {
    Seqs.Map(p, h => TickHolding(h, tick))
  }

  /** After a tick, every quoted holding carries a non-empty string price;
      a second delivery of the same tick changes nothing. */
  lemma TickTwiceIsOnce(p: seq<Holding>, tick: Prices)
    ensures Tick(Tick(p, tick), tick) == Tick(p, tick)
    ensures forall i :: 0 <= i < |p| && p[i].id in tick && Truthy(tick[p[i].id]) ==>
      Tick(p, tick)[i].priceUsd.Text? && Truthy(Tick(p, tick)[i].priceUsd.raw)
  {
    var once := Tick(p, tick);
    var twice := Tick(once, tick);
    forall i | 0 <= i < |p| ensures twice[i] == once[i] {
      assert once[i] == TickHolding(p[i], tick);
    }
  }

  function RemoveStep(id: string, n: int): Holding -> Option<Holding> {
    (h: Holding) => if h.id != id then Some(h) else if h.amount - n > 0 then Some(h.(amount := h.amount - n)) else None
  }

  /** `handleRemoveCoin(id, n)` with `filter(Boolean)`: only the amount moves. */
  function RemoveCoin(p: seq<Holding>, id: string, n: int): (r: seq<Holding>)
    ensures |r| <= |p|
  {
    Seqs.MapPartial(p, RemoveStep(id, n))
  }

  /** Removal touches nothing but amounts: entries of other ids are kept in
      order, and a surviving entry of that id is an original one with n
      fewer units and the same price and lots. */
  lemma RemoveOnlyLowersAmount(p: seq<Holding>, id: string, n: int)
    ensures Seqs.Filter(RemoveCoin(p, id, n), (h: Holding) => h.id != id) ==
            Seqs.Filter(p, (h: Holding) => h.id != id)
    ensures forall i :: 0 <= i < |RemoveCoin(p, id, n)| && RemoveCoin(p, id, n)[i].id == id ==>
      exists j :: (0 <= j < |p| && p[j].id == id && p[j].amount - n > 0 &&
        RemoveCoin(p, id, n)[i] == p[j].(amount := p[j].amount - n))
    ensures (forall j :: 0 <= j < |p| ==> p[j].id != id) ==> RemoveCoin(p, id, n) == p
  {
    var f := RemoveStep(id, n);
    Seqs.MapPartialKeepsOthers(p, f, (h: Holding) => h.id != id);
    var r := RemoveCoin(p, id, n);
    forall i | 0 <= i < |r| && r[i].id == id
      ensures exists j :: (0 <= j < |p| && p[j].id == id && p[j].amount - n > 0 && r[i] == p[j].(amount := p[j].amount - n))
    {
      var j :| 0 <= j < |p| && f(p[j]) == Some(r[i]);
      assert p[j].id == id;
    }
    if forall j :: 0 <= j < |p| ==> p[j].id != id {
      Seqs.MapPartialIdentity(p, f);
    }
  }

  /** `handleAddCoin(coin)`: the string price goes through `parseFloat`
      (`num`) and the saved list is edited as the current block does. */
  function AddCoin(saved: Option<seq<PortfolioBlock.SavedCoin>>, id: string, name: string, symbol: string,
                   priceUsd: string, num: string -> real): (r: seq<PortfolioBlock.SavedCoin>)
    ensures |saved.GetOr([])| <= |r| <= |saved.GetOr([]) | + 1
    ensures exists k :: (0 <= k < |r| && r[k].id == id && r[k].purchases.Some? &&
      |r[k].purchases.value| > 0 &&
      r[k].purchases.value[|r[k].purchases.value| - 1] == Purchase(1, num(priceUsd)))
    ensures r == PortfolioBlock.AddCoin(saved, id, name, symbol, num(priceUsd))
  {
    var r := PortfolioBlock.AddCoin(saved, id, name, symbol, num(priceUsd));
    var list := saved.GetOr([]);
    match PortfolioBlock.FindIndex(list, id)
    case Some(k) =>
      assert r[k].id == id;
      r
    case None =>
      assert r[|list|].id == id;
      r
  }

  /** Adding through this block and loading the result with the current
      block gives the current header's add of the same coin, priced by
      `parseFloat` of the string it arrived with. */
  lemma AddThenLoadIsHeaderAdd(current: seq<Coin>, p: seq<Coin>, coin: Coin, priceUsd: string, num: string -> real)
    requires UniqueIds(p) && coin.priceUsd == num(priceUsd)
    ensures PortfolioBlock.Load(current, Some(AddCoin(Some(PortfolioBlock.SaveAll(p)), coin.id, coin.name, coin.symbol, priceUsd, num)))
            == Header.AddCoin(p, coin)
  {
    PortfolioBlock.AddThenLoadIsHeaderAdd(current, p, coin);
  }

  // ----- the subscription -----

  /** The block's own socket: opening the modal creates one, closing it
      closes it, and the tick handler runs only in between. */
  datatype Block = Block(open: bool, socket: bool, portfolio: seq<Holding>)

  function SetModalOpen(b: Block, nowOpen: bool, saved: Option<seq<PortfolioBlock.SavedCoin>>): (r: Block)
    ensures r.socket == nowOpen && r.open == nowOpen
    ensures nowOpen ==> r.portfolio == Load(b.portfolio, saved)
    ensures !nowOpen ==> r.portfolio == b.portfolio
  {
    if nowOpen then Block(true, true, Load(b.portfolio, saved)) else Block(false, false, b.portfolio)
  }

  /** A tick reaches the block only through its open socket, and there it
      reprices every quoted holding. */
  function OnTick(b: Block, tick: Prices): (r: Block)
    ensures !b.socket ==> r == b
    ensures b.socket ==> r.portfolio == Tick(b.portfolio, tick)
    ensures b.socket ==> (|r.portfolio| == |b.portfolio| &&
      forall i :: 0 <= i < |b.portfolio| && b.portfolio[i].id in tick && Truthy(tick[b.portfolio[i].id]) ==>
        r.portfolio[i].priceUsd == Text(tick[b.portfolio[i].id]))
    ensures r.open == b.open && r.socket == b.socket
  {
    if b.socket then b.(portfolio := Tick(b.portfolio, tick)) else b
  }

  /** A tick delivered twice to the block acts once, and once the modal is
      closed no tick changes the block. */
  lemma OnTickTwiceIsOnce(b: Block, tick: Prices, saved: Option<seq<PortfolioBlock.SavedCoin>>)
    ensures OnTick(OnTick(b, tick), tick) == OnTick(b, tick)
    ensures OnTick(SetModalOpen(b, false, saved), tick) == SetModalOpen(b, false, saved)
  {
    TickTwiceIsOnce(b.portfolio, tick);
  }
}

=== FILE: pagination.dfy ===
/** The pager under the market table, in both generations
    (`src/components/Pagination.tsx` and `src/components/Pagination/Pagination.tsx`).
    It works on offsets: the current page and the page count are derived
    from `offset`, `limit` and `total`, and the buttons ask for the offset
    one `limit` before or after. The current pager also writes the page it
    moves to into the URL. */
module Pagination {
  import opened Js

  /** What a rendered pager shows and what each button requests. */
  datatype Controls = Controls(
    totalPages: int,
    currentPage: int,
    previousDisabled: bool,
    previousOffset: int,
    nextDisabled: bool,
    nextOffset: int)

  /** `Math.floor(a / b)` for a positive b. */
  function FloorDiv(a: int, b: int): (q: int)
    requires b > 0
    ensures q * b <= a < (q + 1) * b
  {
    a / b
  }

  /** `Math.ceil(a / b)` for a positive b. */
  function CeilDiv(a: int, b: int): (q: int)
    requires b > 0
    ensures (q - 1) * b < a <= q * b
  {
    var q := (a + b - 1) / b;
    assert q * b <= a + b - 1 < (q + 1) * b;
    q
  }

  /** The first-generation pager: nothing when `total <= 0` or `limit <= 0`. */
  function LegacyView(offset: int, limit: int, total: int): (r: Option<Controls>)
    ensures r.None? <==> total <= 0 || limit <= 0
    ensures r.Some? ==> (r.value.totalPages - 1) * limit < total <= r.value.totalPages * limit
    ensures r.Some? ==> (r.value.currentPage - 1) * limit <= offset < r.value.currentPage * limit
    ensures r.Some? ==> (r.value.previousDisabled <==> offset == 0) && r.value.previousOffset == offset - limit
    ensures r.Some? ==> (r.value.nextDisabled <==> offset + limit >= total) && r.value.nextOffset == offset + limit
  {
    if total <= 0 || limit <= 0 then None
    else
      var q := FloorDiv(offset, limit);
      assert (q + 1 - 1) * limit == q * limit;
      Some(Controls(
        CeilDiv(total, limit),
        q + 1,
        offset == 0,
        offset - limit,
        offset + limit >= total,
        offset + limit))
  }

  /** A page count times a positive limit bounds an offset from above only
      when the page number is above the offset's page. */
  lemma PageOrder(a: int, b: int, limit: int)
    requires limit > 0 && (a - 1) * limit < b * limit
    ensures a - 1 < b
  {
    if b <= a - 1 {
      MulMonotone(b, a - 1, limit);
    }
  }

  /** Multiplying by a non-negative number keeps order. */
  lemma {:induction false} MulMonotone(x: int, y: int, l: nat)
    requires x <= y
    ensures x * l <= y * l
    decreases l
  {
    if l > 0 {
      MulMonotone(x, y, l - 1);
      assert x * l == x * (l - 1) + x && y * l == y * (l - 1) + y;
    }
  }

  /** For an offset inside the list the page shown lies between 1 and the
      page count. */
  lemma PageInRange(offset: int, limit: int, total: int)
    requires 0 <= offset < total && limit > 0
    ensures LegacyView(offset, limit, total).Some?
    ensures 1 <= LegacyView(offset, limit, total).value.currentPage <= LegacyView(offset, limit, total).value.totalPages
  {
    var c := LegacyView(offset, limit, total).value;
    PageOrder(1, c.currentPage, limit);
    PageOrder(c.currentPage, c.totalPages, limit);
  }

  /** An enabled Next never asks for an offset at or past the end, and it
      moves the page shown on by one. */
  lemma EnabledNextStaysInside(offset: int, limit: int, total: int)
    requires LegacyView(offset, limit, total).Some? && !LegacyView(offset, limit, total).value.nextDisabled
    ensures LegacyView(offset, limit, total).value.nextOffset < total
    ensures LegacyView(offset + limit, limit, total).value.currentPage ==
            LegacyView(offset, limit, total).value.currentPage + 1
  {
    var c := LegacyView(offset, limit, total).value;
    var d := LegacyView(offset + limit, limit, total).value;
    assert (c.currentPage - 1) * limit + limit == c.currentPage * limit;
    assert c.currentPage * limit + limit == (c.currentPage + 1) * limit;
    PageOrder(d.currentPage, c.currentPage + 1, limit);
    PageOrder(c.currentPage + 1, d.currentPage, limit);
  }

  /** Next followed by Previous asks for the offset it started from, and
      from a non-negative offset that Previous is enabled. */
  lemma NextThenPrevious(offset: int, limit: int, total: int)
    requires LegacyView(offset, limit, total).Some?
    ensures LegacyView(offset + limit, limit, total).value.previousOffset == offset
    ensures offset >= 0 ==> !LegacyView(offset + limit, limit, total).value.previousDisabled
  {
  }

  /** The current pager: the same controls, plus the page number each button
      writes into the URL. */
  datatype Rendered = Rendered(controls: Controls, previousPage: int, nextPage: int)

  /** The page `handlePageChange` writes for the offset it is given. */
  function UrlPage(newOffset: int, limit: int): (page: int)
    requires limit > 0
    ensures (page - 1) * limit <= newOffset < page * limit
  {
    var q := FloorDiv(newOffset, limit);
    assert (q + 1 - 1) * limit == q * limit;
    q + 1
  }

  function View(offset: int, limit: int, total: int): (r: Option<Rendered>)
    ensures r.None? <==> LegacyView(offset, limit, total).None?
    ensures r.Some? ==> r.value.controls == LegacyView(offset, limit, total).value
  {
    match LegacyView(offset, limit, total)
    case None => None
    case Some(c) => Some(Rendered(c, UrlPage(c.previousOffset, limit), UrlPage(c.nextOffset, limit)))
  }

  /** The page a button writes into the URL is the page the pager shows once
      the new offset arrives, one below or one above the current page. */
  lemma UrlMatchesPageShown(offset: int, limit: int, total: int)
    requires View(offset, limit, total).Some?
    ensures View(offset - limit, limit, total).Some? && View(offset + limit, limit, total).Some?
    ensures View(offset, limit, total).value.previousPage == View(offset - limit, limit, total).value.controls.currentPage
    ensures View(offset, limit, total).value.nextPage == View(offset + limit, limit, total).value.controls.currentPage
    ensures View(offset, limit, total).value.previousPage == View(offset, limit, total).value.controls.currentPage - 1
    ensures View(offset, limit, total).value.nextPage == View(offset, limit, total).value.controls.currentPage + 1
  {
    var r := View(offset, limit, total).value;
    var p := r.controls.currentPage;
    assert (p - 1) * limit - limit == (p - 2) * limit;
    assert p * limit + limit == (p + 1) * limit;
    PageOrder(r.previousPage, p - 1, limit);
    PageOrder(p - 1, r.previousPage, limit);
    PageOrder(r.nextPage, p + 1, limit);
    PageOrder(p + 1, r.nextPage, limit);
  }
}

=== FILE: portfolio.dfy ===
/** The portfolio store: each held coin carries its current price, the number of
    units held and the lots it was bought in. This module fixes the record
    shapes and the reference sums that the aggregations of the header and the
    portfolio modal are measured against. */
module Portfolio {

  /** One lot: `amount` units bought at `priceOnPurchase` dollars each. */
  datatype Purchase = Purchase(amount: int, priceOnPurchase: real)

  /** A held coin. `priceUsd` is the live price; `amount` the units held. */
  datatype Coin = Coin(
    id: string,
    name: string,
    symbol: string,
    priceUsd: real,
    amount: int,
    purchases: seq<Purchase>)

  /** No two entries share an id, the shape every add path aims to keep. */
  ghost predicate UniqueIds(p: seq<Coin>) {
    forall i, j :: 0 <= i < j < |p| ==> p[i].id != p[j].id
  }

  /** Some entry has the given id (`find(c => c.id === id)` succeeds). */
  predicate Holds(p: seq<Coin>, id: string) {
    exists i | 0 <= i < |p| :: p[i].id == id
  }

  /** Entries whose id differs from `id`. */
  function OtherThan(id: string): Coin -> bool {
    (c: Coin) => c.id != id
  }

  // ----- reference sums, folded left to right as `reduce` does -----

  /** Units bought over all lots. */
  function Units(ps: seq<Purchase>): int {
    if |ps| == 0 then 0 else Units(ps[..|ps| - 1]) + ps[|ps| - 1].amount
  }

  /** Money paid over all lots. */
  function Cost(ps: seq<Purchase>): real {
    if |ps| == 0 then 0.0
    else Cost(ps[..|ps| - 1]) + ps[|ps| - 1].priceOnPurchase * ps[|ps| - 1].amount as real
  }

  /** Paper gain of the lots at the current price. */
  function Gain(price: real, ps: seq<Purchase>): real {
    if |ps| == 0 then 0.0
    else Gain(price, ps[..|ps| - 1]) + (price - ps[|ps| - 1].priceOnPurchase) * ps[|ps| - 1].amount as real
  }

  /** Market value of the holdings: price times units held. */
  function Value(p: seq<Coin>): real {
    if |p| == 0 then 0.0
    else Value(p[..|p| - 1]) + p[|p| - 1].priceUsd * p[|p| - 1].amount as real
  }

  /** Cost basis: every lot of every coin at its purchase price. */
  function InitialValue(p: seq<Coin>): real {
    if |p| == 0 then 0.0 else InitialValue(p[..|p| - 1]) + Cost(p[|p| - 1].purchases)
  }

  /** Per-coin difference; a coin without lots contributes nothing. */
  function CoinDifference(c: Coin): real {
    if |c.purchases| == 0 then 0.0 else Gain(c.priceUsd, c.purchases)
  }

  /** Profit over all coins. */
  function Difference(p: seq<Coin>): real {
    if |p| == 0 then 0.0 else Difference(p[..|p| - 1]) + CoinDifference(p[|p| - 1])
  }

  /** The lots valued at today's price. */
  function MarkedValue(p: seq<Coin>): real {
    if |p| == 0 then 0.0
    else MarkedValue(p[..|p| - 1]) + p[|p| - 1].priceUsd * Units(p[|p| - 1].purchases) as real
  }

  /** Every coin's `amount` equals the units of its lots. */
  ghost predicate Consistent(p: seq<Coin>) {
    forall i :: 0 <= i < |p| ==> p[i].amount == Units(p[i].purchases)
  }

  /** The shape the header's add and remove work with: every lot is a single
      unit and the coin's amount counts the lots. */
  ghost predicate UnitLots(c: Coin) {
    c.amount == |c.purchases| && forall k :: 0 <= k < |c.purchases| ==> c.purchases[k].amount == 1
  }

  // ----- percentages -----

  /** `calculatePercentageChange`: guarded only against a zero basis. */
  function PercentageChange(diff: real, initialValue: real): (r: real)
    ensures initialValue == 0.0 ==> r == 0.0
    ensures initialValue != 0.0 ==> r * initialValue == diff * 100.0
  {
    if initialValue == 0.0 then 0.0 else diff / initialValue * 100.0
  }

  /** The legacy header's and legacy modal's percentage: a basis that is not
      positive yields 0. */
  function PositiveBasisPercentage(diff: real, initialValue: real): (r: real)
    ensures initialValue <= 0.0 ==> r == 0.0
    ensures initialValue > 0.0 ==> r * initialValue == diff * 100.0
  {
    if initialValue > 0.0 then diff / initialValue * 100.0 else 0.0
  }

  /** The two guards agree except on a negative basis, where only the zero
      guard divides. */
  lemma PercentageGuardsDiffer(diff: real, initialValue: real)
    ensures initialValue >= 0.0 ==> PercentageChange(diff, initialValue) == PositiveBasisPercentage(diff, initialValue)
    ensures initialValue < 0.0 && diff != 0.0 ==> PercentageChange(diff, initialValue) != PositiveBasisPercentage(diff, initialValue)
  {
    if initialValue < 0.0 && diff != 0.0 {
      var r := PercentageChange(diff, initialValue);
      assert r * initialValue == diff * 100.0;
      assert r != 0.0;
    }
  }

  // ----- lemmas about the sums -----

  lemma {:induction false} ValueAppend(a: seq<Coin>, b: seq<Coin>)
    ensures Value(a + b) == Value(a) + Value(b)
    decreases |b|
  {
    if |b| > 0 {
      var b' := b[..|b| - 1];
      assert (a + b)[..|a + b| - 1] == a + b';
      assert (a + b)[|a + b| - 1] == b[|b| - 1];
      ValueAppend(a, b');
    } else {
      assert a + b == a;
    }
  }

  lemma {:induction false} InitialValueAppend(a: seq<Coin>, b: seq<Coin>)
    ensures InitialValue(a + b) == InitialValue(a) + InitialValue(b)
    decreases |b|
  {
    if |b| > 0 {
      var b' := b[..|b| - 1];
      assert (a + b)[..|a + b| - 1] == a + b';
      assert (a + b)[|a + b| - 1] == b[|b| - 1];
      InitialValueAppend(a, b');
    } else {
      assert a + b == a;
    }
  }

  lemma {:induction false} DifferenceAppend(a: seq<Coin>, b: seq<Coin>)
    ensures Difference(a + b) == Difference(a) + Difference(b)
    decreases |b|
  {
    if |b| > 0 {
      var b' := b[..|b| - 1];
      assert (a + b)[..|a + b| - 1] == a + b';
      assert (a + b)[|a + b| - 1] == b[|b| - 1];
      DifferenceAppend(a, b');
    } else {
      assert a + b == a;
    }
  }

  lemma {:induction false} UnitsAppend(a: seq<Purchase>, b: seq<Purchase>)
    ensures Units(a + b) == Units(a) + Units(b)
    decreases |b|
  {
    if |b| > 0 {
      var b' := b[..|b| - 1];
      assert (a + b)[..|a + b| - 1] == a + b';
      assert (a + b)[|a + b| - 1] == b[|b| - 1];
      UnitsAppend(a, b');
    } else {
      assert a + b == a;
    }
  }

  lemma {:induction false} CostAppend(a: seq<Purchase>, b: seq<Purchase>)
    ensures Cost(a + b) == Cost(a) + Cost(b)
    decreases |b|
  {
    if |b| > 0 {
      var b' := b[..|b| - 1];
      assert (a + b)[..|a + b| - 1] == a + b';
      assert (a + b)[|a + b| - 1] == b[|b| - 1];
      CostAppend(a, b');
    } else {
      assert a + b == a;
    }
  }

  /** A single-unit lot list has as many units as lots. */
  lemma {:induction false} UnitLotsUnits(ps: seq<Purchase>)
    requires forall k :: 0 <= k < |ps| ==> ps[k].amount == 1
    ensures Units(ps) == |ps|
    decreases |ps|
  {
    if |ps| > 0 {
      UnitLotsUnits(ps[..|ps| - 1]);
    }
  }

  /** The gain of a coin's lots is today's value of those lots minus what was
      paid for them. */
  lemma {:induction false} GainIsMarkedMinusCost(price: real, ps: seq<Purchase>)
    ensures Gain(price, ps) == price * Units(ps) as real - Cost(ps)
    decreases |ps|
  {
    if |ps| > 0 {
      var ps' := ps[..|ps| - 1];
      var q := ps[|ps| - 1];
      GainIsMarkedMinusCost(price, ps');
      assert (price - q.priceOnPurchase) * q.amount as real
          == price * q.amount as real - q.priceOnPurchase * q.amount as real;
      assert price * (Units(ps') + q.amount) as real
          == price * Units(ps') as real + price * q.amount as real;
    }
  }

  /** The difference is the lots valued at today's price minus their cost. */
  lemma {:induction false} DifferenceIsMarkedMinusInitial(p: seq<Coin>)
    ensures Difference(p) == MarkedValue(p) - InitialValue(p)
    decreases |p|
  {
    if |p| > 0 {
      var c := p[|p| - 1];
      DifferenceIsMarkedMinusInitial(p[..|p| - 1]);
      GainIsMarkedMinusCost(c.priceUsd, c.purchases);
    }
  }

  /** When every amount equals the units of its lots, difference = total -
      initial value. */
  lemma {:induction false} ConsistentDifference(p: seq<Coin>)
    requires Consistent(p)
    ensures Difference(p) == Value(p) - InitialValue(p)
    decreases |p|
  {
    DifferenceIsMarkedMinusInitial(p);
    MarkedIsValue(p);
  }

  lemma {:induction false} MarkedIsValue(p: seq<Coin>)
    requires Consistent(p)
    ensures MarkedValue(p) == Value(p)
    decreases |p|
  {
    if |p| > 0 {
      var p' := p[..|p| - 1];
      assert Consistent(p') by {
        forall i | 0 <= i < |p'| ensures p'[i].amount == Units(p'[i].purchases) {
          assert p'[i] == p[i];
        }
      }
      MarkedIsValue(p');
    }
  }
}

=== FILE: portfolio_block.dfy ===
/** The portfolio block of the current generation
    (`src/components/Portfolio/PortfolioBlock.tsx`). It owns the portfolio
    shown in the modal, reloads it from storage whenever the modal opens,
    listens to ticks only while the modal is open, and adds coins by editing
    the saved list directly. Storage is a value: what `getItem` answers is a
    parameter, and what `setItem` is given is a result. */
module PortfolioBlock {
  import opened Js
  import opened Portfolio
  import opened WebSocketManager
  import Seqs
  import Header

  /** A coin as it comes back from `JSON.parse` of the saved list. Numeric
      fields carry the outcome of parsing them (None for a missing field or a
      value that parses to NaN); `purchases` may be missing. */
  datatype SavedCoin = SavedCoin(
    id: string,
    name: string,
    symbol: string,
    priceUsd: Option<real>,
    amount: Option<int>,
    purchases: Option<seq<Purchase>>)

  /** The load normalisation: `parseFloat(...) || 0`, `parseInt(...) || 0`
      and `purchases || []`. */
  function Normalise(s: SavedCoin): (c: Coin)
    ensures c.id == s.id && c.name == s.name && c.symbol == s.symbol
    ensures s.priceUsd.None? ==> c.priceUsd == 0.0
    ensures s.priceUsd.Some? ==> c.priceUsd == s.priceUsd.value
    ensures s.amount.None? ==> c.amount == 0
    ensures s.amount.Some? ==> c.amount == s.amount.value
    ensures s.purchases.None? ==> c.purchases == []
    ensures s.purchases.Some? ==> c.purchases == s.purchases.value
  {
    Coin(s.id, s.name, s.symbol, s.priceUsd.GetOr(0.0), s.amount.GetOr(0), s.purchases.GetOr([]))
  }

  /** What `setItem` stores for a coin, read back. */
  function Saved(c: Coin): SavedCoin {
    SavedCoin(c.id, c.name, c.symbol, Some(c.priceUsd), Some(c.amount), Some(c.purchases))
  }

  function SaveAll(p: seq<Coin>): seq<SavedCoin> {
    Seqs.Map(p, Saved)
  }

  /** The load on opening the modal: nothing saved keeps the current list. */
  function Load(current: seq<Coin>, saved: Option<seq<SavedCoin>>): (r: seq<Coin>)
    ensures saved.None? ==> r == current
    ensures saved.Some? ==>
      (|r| == |saved.value| && forall i :: 0 <= i < |r| ==> r[i] == Normalise(saved.value[i]))
    ensures saved.Some? ==> forall i :: 0 <= i < |r| ==> r[i].id == saved.value[i].id
  {
    match saved
    case None => current
    case Some(list) => Seqs.Map(list, Normalise)
  }

  /** Loading what was saved gives back the saved portfolio. */
  lemma LoadAfterSave(current: seq<Coin>, p: seq<Coin>)
    ensures Load(current, Some(SaveAll(p))) == p
  {
    var r := Load(current, Some(SaveAll(p)));
    assert |r| == |p|;
    forall i | 0 <= i < |p| ensures r[i] == p[i] {
      assert SaveAll(p)[i] == Saved(p[i]);
    }
  }

  /** The tick rule for one coin: `parseFloat(tick[id]) || priceUsd`. A
      missing or empty entry, or one that parses to 0, keeps the price. */
  function TickCoin(c: Coin, tick: Prices, num: string -> real): Coin {
    if c.id in tick && Truthy(tick[c.id]) && num(tick[c.id]) != 0.0 then c.(priceUsd := num(tick[c.id])) else c
  }

  function Tick(p: seq<Coin>, tick: Prices, num: string -> real): (r: seq<Coin>)
    ensures |r| == |p|
    ensures forall i :: 0 <= i < |p| ==>
      r[i] == p[i].(priceUsd := r[i].priceUsd) &&
      (r[i].priceUsd != p[i].priceUsd ==> p[i].id in tick && r[i].priceUsd == num(tick[p[i].id]) && r[i].priceUsd != 0.0)
    ensures forall i :: 0 <= i < |p| && p[i].id in tick && Truthy(tick[p[i].id]) && num(tick[p[i].id]) != 0.0 ==>
      r[i].priceUsd == num(tick[p[i].id])
    ensures forall i :: 0 <= i < |p| && !(p[i].id in tick && Truthy(tick[p[i].id]) && num(tick[p[i].id]) != 0.0) ==>
      r[i] == p[i]
  {
    Seqs.Map(p, c => TickCoin(c, tick, num))
  }

  /** The same tick delivered twice changes nothing the second time. */
  lemma TickTwiceIsOnce(p: seq<Coin>, tick: Prices, num: string -> real)
    ensures Tick(Tick(p, tick, num), tick, num) == Tick(p, tick, num)
  {
    var once := Tick(p, tick, num);
    var twice := Tick(once, tick, num);
    forall i | 0 <= i < |p| ensures twice[i] == once[i] {
      assert once[i] == TickCoin(p[i], tick, num);
    }
  }

  /** The `map` callback of `handleRemoveCoin`: only the amount moves. */
  function RemoveStep(id: string, n: int): Coin -> Option<Coin> {
    (c: Coin) => if c.id != id then Some(c) else if c.amount - n > 0 then Some(Lowered(c, n)) else None
  }

  /** `handleRemoveCoin(id, n)`; the list returned is also what is saved. */
  function RemoveCoin(p: seq<Coin>, id: string, n: int): (r: seq<Coin>)
    ensures |r| <= |p|
    ensures Seqs.Filter(r, OtherThan(id)) == Seqs.Filter(p, OtherThan(id))
  {
    var f := RemoveStep(id, n);
    Seqs.MapPartialKeepsOthers(p, f, OtherThan(id));
    Seqs.MapPartial(p, f)
  }

  /** An entry of that id that survives is an original one with n fewer
      units, still positive, and with every lot it had. */
  lemma RemoveOnlyLowersAmount(p: seq<Coin>, id: string, n: int, i: nat)
    requires i < |RemoveCoin(p, id, n)| && RemoveCoin(p, id, n)[i].id == id
    ensures exists j :: (0 <= j < |p| && p[j].id == id && p[j].amount - n > 0 &&
      RemoveCoin(p, id, n)[i] == Lowered(p[j], n))
  {
    var r := RemoveCoin(p, id, n);
    var j :| 0 <= j < |p| && RemoveStep(id, n)(p[j]) == Some(r[i]);
    assert p[j].id == id;
  }

  /** With unique ids, removing part of a holding lowers its amount and keeps
      every lot, so the cost basis stays where it was. */
  lemma RemoveKeepsCostBasis(p: seq<Coin>, id: string, n: int, k: nat)
    requires UniqueIds(p) && k < |p| && p[k].id == id && p[k].amount - n > 0
    ensures RemoveCoin(p, id, n) == p[..k] + [Lowered(p[k], n)] + p[k + 1..]
    ensures InitialValue(RemoveCoin(p, id, n)) == InitialValue(p)
  {
    Seqs.SplitAt(p, k);
    RemoveHeld(p, id, n, k);
    SameLotsSameCost(p[..k], p[k], Lowered(p[k], n), p[k + 1..]);
  }

  lemma SameLotsSameCost(a: seq<Coin>, x: Coin, y: Coin, b: seq<Coin>)
    requires x.purchases == y.purchases
    ensures InitialValue(a + [x] + b) == InitialValue(a + [y] + b)
  {
    Header.InitialValueSplice(a, x, b);
    Header.InitialValueSplice(a, y, b);
  }

  /** The entry left after n units of c are removed. */
  function Lowered(c: Coin, n: int): Coin {
    c.(amount := c.amount - n)
  }

  lemma RemoveHeld(p: seq<Coin>, id: string, n: int, k: nat)
    requires UniqueIds(p) && k < |p| && p[k].id == id && p[k].amount - n > 0
    ensures RemoveCoin(p, id, n) == p[..k] + [Lowered(p[k], n)] + p[k + 1..]
  {
    var a, b := p[..k], p[k + 1..];
    Seqs.SplitAt(p, k);
    assert forall i :: 0 <= i < |a| ==> a[i].id != id;
    assert forall i :: 0 <= i < |b| ==> b[i].id != id by {
      forall i | 0 <= i < |b| ensures b[i].id != id {
        assert b[i] == p[k + 1 + i];
      }
    }
    RemoveSplice(a, p[k], b, id, n);
  }

  lemma RemoveSplice(a: seq<Coin>, x: Coin, b: seq<Coin>, id: string, n: int)
    requires x.id == id && x.amount - n > 0
    requires forall i :: 0 <= i < |a| ==> a[i].id != id
    requires forall i :: 0 <= i < |b| ==> b[i].id != id
    ensures Seqs.MapPartial(a + [x] + b, RemoveStep(id, n)) == a + [Lowered(x, n)] + b
  {
    var f := RemoveStep(id, n);
    var y := Lowered(x, n);
    assert f(x) == Some(y);
    Seqs.MapPartialSplice(a, x, b, f);
    RemoveSkipsOthers(a, id, n);
    RemoveSkipsOthers(b, id, n);
    assert Seqs.MapPartial(a + [x] + b, f) == Seqs.MapPartial(a, f) + [y] + Seqs.MapPartial(b, f);
  }

  /** Entries of another id pass the remove pipeline unchanged. */
  lemma RemoveSkipsOthers(s: seq<Coin>, id: string, n: int)
    requires forall i :: 0 <= i < |s| ==> s[i].id != id
    ensures Seqs.MapPartial(s, RemoveStep(id, n)) == s
  {
    Seqs.MapPartialIdentity(s, RemoveStep(id, n));
  }

  /** Index of the first saved entry with this id (`findIndex`). */
  function FindIndex(list: seq<SavedCoin>, id: string): (r: Option<nat>)
    ensures r.Some? ==>
      (r.value < |list| && list[r.value].id == id && forall j :: 0 <= j < r.value ==> list[j].id != id)
    ensures r.None? ==> forall j :: 0 <= j < |list| ==> list[j].id != id
  {
    if |list| == 0 then None
    else if list[0].id == id then Some(0)
    else match FindIndex(list[1..], id)
      case None => None
      case Some(k) => Some(k + 1)
  }

  /** The saved entry after one more unit at `price`: missing lots become
      `[]` before the push, and a missing amount stays unusable
      (`undefined + 1` is NaN). */
  function BoughtSaved(s: SavedCoin, price: real): SavedCoin {
    s.(purchases := Some(s.purchases.GetOr([]) + [Purchase(1, price)]),
       amount := match s.amount case Some(a) => Some(a + 1) case None => None)
  }

  /** `handleAddCoin(coin)`: edits the saved list (empty when nothing is
      saved) and answers what is written back. The block's own list is not
      touched until the modal is opened again. */
  function AddCoin(saved: Option<seq<SavedCoin>>, id: string, name: string, symbol: string, price: real): (r: seq<SavedCoin>)
    ensures var list := saved.GetOr([]);
      match FindIndex(list, id)
      case Some(k) => |r| == |list| && r[k] == BoughtSaved(list[k], price) &&
        forall j :: 0 <= j < |list| && j != k ==> r[j] == list[j]
      case None => r == list + [SavedCoin(id, name, symbol, Some(price), Some(1), Some([Purchase(1, price)]))]
  {
    var list := saved.GetOr([]);
    match FindIndex(list, id)
    case Some(k) => list[k := BoughtSaved(list[k], price)]
    case None => list + [SavedCoin(id, name, symbol, Some(price), Some(1), Some([Purchase(1, price)]))]
  }

  /** Adding through storage and reopening the modal gives exactly the
      header's add on the saved portfolio, for a portfolio with unique ids. */
  lemma AddThenLoadIsHeaderAdd(current: seq<Coin>, p: seq<Coin>, coin: Coin)
    requires UniqueIds(p)
    ensures Load(current, Some(AddCoin(Some(SaveAll(p)), coin.id, coin.name, coin.symbol, coin.priceUsd)))
      == Header.AddCoin(p, coin)
  {
    var list := SaveAll(p);
    var r := AddCoin(Some(list), coin.id, coin.name, coin.symbol, coin.priceUsd);
    var loaded := Load(current, Some(r));
    match FindIndex(list, coin.id)
    case Some(k) =>
      assert list[k] == Saved(p[k]);
      Header.AddHeld(p, coin, k);
      var e := p[..k] + [Header.Bought(p[k], coin.priceUsd)] + p[k + 1..];
      forall i | 0 <= i < |p| ensures loaded[i] == e[i] {
        assert list[i] == Saved(p[i]);
      }
    case None =>
      assert !Holds(p, coin.id) by {
        forall i | 0 <= i < |p| ensures p[i].id != coin.id {
          assert list[i] == Saved(p[i]);
        }
      }
      LoadAfterSave(current, p);
      forall i | 0 <= i < |p| ensures loaded[i] == p[i] {
        assert r[i] == list[i];
      }
  }

  // ----- the subscription -----

  /** The effect keyed on `isModalOpen`: the previous run's cleanup removes
      the handler when the modal was open; the new run, when it is open,
      connects and registers the handler. */
  function ModalEffect(m: Manager, wasOpen: bool, nowOpen: bool, h: Handler): (r: Manager)
    ensures nowOpen ==> h in r.handlers && r.ws.Some?
    ensures wasOpen && !nowOpen ==> h !in r.handlers
    ensures !wasOpen && !nowOpen ==> r == m
  {
    var afterCleanup := if wasOpen then Unsubscribe(m, h) else m;
    if nowOpen then Subscribe(afterCleanup, h) else afterCleanup
  }

  /** Opening and then closing the modal leaves the handler list as it was
      and receives each parsed tick exactly once while open. */
  lemma OpenThenClose(m: Manager, h: Handler, d: Prices)
    requires h !in m.handlers
    ensures ModalEffect(ModalEffect(m, false, true, h), true, false, h).handlers == m.handlers
    ensures DeliveriesTo(Dispatch(ModalEffect(m, false, true, h), Some(d)), h) == 1
  {
    SubscribeThenUnsubscribe(m, h);
    SubscribedHandlerReceivesOnce(m, h, d);
  }
}

=== FILE: portfolio_modal.dfy ===
/** The portfolio modal of the current generation
    (`src/components/Portfolio/PortfolioModal.tsx`). It keeps a local copy of
    the portfolio, edits it with the + and - buttons, and reports each edit to
    its owner through `onAddCoin(coin)` or `onRemoveCoin(id, 1)`. */
module PortfolioModal {
  import opened Js
  import opened Portfolio
  import Header
  import Seqs

  /** The owner callback an edit fires. */
  datatype Call = AddCall(coin: Coin) | RemoveCall(id: string, n: int)

  /** The local list after an edit, and the callback fired, if any. */
  datatype Update = Update(coins: seq<Coin>, call: Option<Call>)

  /** Index k holds the first entry with this id. */
  ghost predicate FirstAt(p: seq<Coin>, id: string, k: int) {
    0 <= k < |p| && p[k].id == id && forall j :: 0 <= j < k ==> p[j].id != id
  }

  /** `find(c => c.id === id)`. */
  function First(p: seq<Coin>, id: string): (r: Option<Coin>)
    ensures r.None? <==> !Holds(p, id)
    ensures r.Some? ==> exists k :: FirstAt(p, id, k) && p[k] == r.value
  {
    if |p| == 0 then None
    else if p[0].id == id then
      assert FirstAt(p, id, 0);
      Some(p[0])
    else
      var r := First(p[1..], id);
      assert Holds(p[1..], id) ==> Holds(p, id);
      assert Holds(p, id) ==> Holds(p[1..], id) by {
        if Holds(p, id) {
          var i :| 0 <= i < |p| && p[i].id == id;
          assert p[1..][i - 1] == p[i];
        }
      }
      assert r.Some? ==> exists k :: FirstAt(p, id, k) && p[k] == r.value by {
        if r.Some? {
          var k :| FirstAt(p[1..], id, k) && p[1..][k] == r.value;
          assert FirstAt(p, id, k + 1);
        }
      }
      r
  }

  /** `incrementAmount(id)`: every entry with this id gains one unit and a
      lot at the found coin's price, and the found coin is reported. */
  function Increment(p: seq<Coin>, id: string): (r: Update)
    ensures !Holds(p, id) ==> r == Update(p, None)
    ensures Holds(p, id) ==>
      r.call == Some(AddCall(First(p, id).value)) && |r.coins| == |p| &&
      forall i :: 0 <= i < |p| ==>
        (p[i].id != id ==> r.coins[i] == p[i]) &&
        (p[i].id == id ==>
          (r.coins[i].amount == p[i].amount + 1 &&
           r.coins[i].purchases == p[i].purchases + [Purchase(1, First(p, id).value.priceUsd)] &&
           r.coins[i].id == id && r.coins[i].priceUsd == p[i].priceUsd))
  {
    match First(p, id)
    case None => Update(p, None)
    case Some(coin) => Update(Seqs.Map(p, Header.BuyIfId(id, coin.priceUsd)), Some(AddCall(coin)))
  }

  /** `decrementAmount(id)`: only when the found coin has a positive amount,
      the list goes through the header's removal of one unit and
      `onRemoveCoin(id, 1)` is reported. */
  function Decrement(p: seq<Coin>, id: string): (r: Update)
    ensures (!Holds(p, id) || First(p, id).value.amount <= 0) ==> r == Update(p, None)
    ensures Holds(p, id) && First(p, id).value.amount > 0 ==>
      r.call == Some(RemoveCall(id, 1)) && |r.coins| <= |p| &&
      Seqs.Filter(r.coins, OtherThan(id)) == Seqs.Filter(p, OtherThan(id))
  {
    match First(p, id)
    case None => Update(p, None)
    case Some(coin) =>
      if coin.amount > 0 then Update(Header.RemoveCoin(p, id, 1), Some(RemoveCall(id, 1)))
      else Update(p, None)
  }

  /** The header applies the reported callback to its own list. */
  function OwnerApplies(p: seq<Coin>, call: Option<Call>): seq<Coin> {
    match call
    case None => p
    case Some(AddCall(coin)) => Header.AddCoin(p, coin)
    case Some(RemoveCall(id, n)) => Header.RemoveCoin(p, id, n)
  }

  /** When the modal's copy equals the header's portfolio, the callback an
      increment fires brings the header to the same list as the copy. */
  lemma IncrementKeepsOwnerInSync(p: seq<Coin>, id: string)
    ensures OwnerApplies(p, Increment(p, id).call) == Increment(p, id).coins
  {
    if Holds(p, id) {
      var coin := First(p, id).value;
      var k :| FirstAt(p, id, k) && p[k] == coin;
      assert Holds(p, coin.id);
    }
  }

  /** The same for a decrement. */
  lemma DecrementKeepsOwnerInSync(p: seq<Coin>, id: string)
    ensures OwnerApplies(p, Decrement(p, id).call) == Decrement(p, id).coins
  {
  }

  /** With unique ids, a decrement of a coin holding more than one unit drops
      its newest lot; one holding exactly one unit leaves the list. */
  lemma DecrementHeld(p: seq<Coin>, k: nat)
    requires UniqueIds(p) && k < |p| && p[k].amount > 0
    ensures p[k].amount > 1 ==>
      (Decrement(p, p[k].id).coins ==
       p[..k] + [Header.Trimmed(p[k], 1)] + p[k + 1..])
    ensures p[k].amount == 1 ==> Decrement(p, p[k].id).coins == p[..k] + p[k + 1..]
  {
    var id := p[k].id;
    FirstOfUnique(p, k);
    DecrementIsRemove(p, id);
    Header.RemoveHeld(p, id, 1, k);
  }

  /** With unique ids, `find` returns the entry itself. */
  lemma {:induction false} FirstOfUnique(p: seq<Coin>, k: nat)
    requires UniqueIds(p) && k < |p|
    ensures First(p, p[k].id) == Some(p[k])
    decreases k
  {
    if k > 0 {
      assert p[0].id != p[k].id;
      var q := p[1..];
      assert q[k - 1] == p[k];
      assert UniqueIds(q) by {
        forall i, j | 0 <= i < j < |q| ensures q[i].id != q[j].id {
          assert q[i] == p[i + 1] && q[j] == p[j + 1];
        }
      }
      FirstOfUnique(q, k - 1);
    }
  }

  lemma DecrementIsRemove(p: seq<Coin>, id: string)
    requires Holds(p, id) && First(p, id).value.amount > 0
    ensures Decrement(p, id).coins == Header.RemoveCoin(p, id, 1)
  {
  }

  /** An increment followed by a decrement of a held coin with at least one
      unit restores the local list, and the two callbacks are the header's
      add of the found coin and its removal of one unit. */
  lemma IncrementThenDecrement(p: seq<Coin>, id: string)
    requires forall i :: 0 <= i < |p| && p[i].id == id ==> p[i].amount >= 1
    ensures Decrement(Increment(p, id).coins, id).coins == p
    ensures Holds(p, id) ==>
      Increment(p, id).call == Some(AddCall(First(p, id).value)) &&
      Decrement(Increment(p, id).coins, id).call == Some(RemoveCall(id, 1))
  {
    if Holds(p, id) {
      var coin := First(p, id).value;
      IncrementKeepsOwnerInSync(p, id);
      assert Increment(p, id).coins == Header.AddCoin(p, coin);
      IncrementedIsFoundWithUnits(p, id);
      DecrementIsRemove(Increment(p, id).coins, id);
      Header.AddThenRemoveRestores(p, coin);
    }
  }

  /** After an increment of a held coin, `find` meets an entry of it with
      at least two units. */
  lemma IncrementedIsFoundWithUnits(p: seq<Coin>, id: string)
    requires Holds(p, id)
    requires forall i :: 0 <= i < |p| && p[i].id == id ==> p[i].amount >= 1
    ensures Holds(Increment(p, id).coins, id)
    ensures First(Increment(p, id).coins, id).value.amount >= 2
  {
    var q := Increment(p, id).coins;
    var j :| 0 <= j < |p| && p[j].id == id;
    assert q[j].id == id;
    assert Holds(q, id);
    var c := First(q, id).value;
    var k :| FirstAt(q, id, k) && q[k] == c;
    assert k < |p|;
    assert q[k].id == id;
    assert p[k].id == id;
    assert q[k].amount == p[k].amount + 1;
  }

  // ----- the amounts map -----

  /** Every pending amount is a non-negative integer. */
  ghost predicate NonNegative(amounts: map<string, int>) {
    forall id :: id in amounts ==> amounts[id] >= 0
  }

  /** `handleChangeAmount(id, value)`, with `parsed` the outcome of
      `parseInt(value, 10)` (None for NaN): only a non-negative integer is
      stored, under `id` alone. */
  function ChangeAmount(amounts: map<string, int>, id: string, parsed: Option<int>): (r: map<string, int>)
    ensures parsed.None? || parsed.value < 0 ==> r == amounts
    ensures parsed.Some? && parsed.value >= 0 ==> id in r && r[id] == parsed.value
    ensures forall other :: other != id ==> (other in r <==> other in amounts)
    ensures forall other :: other != id && other in r ==> r[other] == amounts[other]
    ensures NonNegative(amounts) ==> NonNegative(r)
  {
    if parsed.Some? && parsed.value >= 0 then amounts[id := parsed.value] else amounts
  }

  /** The effect that seeds `amounts` from the local list, one assignment
      per entry in list order. */
  function InitialAmounts(p: seq<Coin>): map<string, int> {
    if |p| == 0 then map[] else InitialAmounts(p[..|p| - 1])[p[|p| - 1].id := p[|p| - 1].amount]
  }

  /** Every held id is a key and only those; a repeated id takes the amount
      of its last entry. */
  lemma {:induction false} InitialAmountsKeys(p: seq<Coin>)
    ensures forall i :: 0 <= i < |p| ==> p[i].id in InitialAmounts(p)
    ensures forall id :: id in InitialAmounts(p) ==> Holds(p, id)
    ensures forall i :: 0 <= i < |p| && LastWithId(p, i) ==> InitialAmounts(p)[p[i].id] == p[i].amount
    decreases |p|
  {
    if |p| > 0 {
      var q := p[..|p| - 1];
      var x := p[|p| - 1];
      InitialAmountsKeys(q);
      var rest, r := InitialAmounts(q), InitialAmounts(p);
      assert r == rest[x.id := x.amount];
      forall i | 0 <= i < |p| ensures p[i].id in r {
        if i < |q| { assert q[i] == p[i]; }
      }
      forall id | id in r ensures Holds(p, id) {
        if id != x.id {
          assert id in rest;
          var i :| 0 <= i < |q| && q[i].id == id;
          assert p[i].id == id;
        } else {
          assert p[|p| - 1].id == id;
        }
      }
      forall i | 0 <= i < |p| && LastWithId(p, i) ensures r[p[i].id] == p[i].amount {
        if i < |q| {
          assert q[i] == p[i];
          assert p[i].id != x.id;
          assert LastWithId(q, i);
        }
      }
    }
  }

  /** No later entry shares the id of entry i. */
  ghost predicate LastWithId(p: seq<Coin>, i: int) {
    0 <= i < |p| && forall j :: i < j < |p| ==> p[j].id != p[i].id
  }

  /** With unique ids the seeded map holds each entry's own amount. */
  lemma InitialAmountsOfUnique(p: seq<Coin>)
    requires UniqueIds(p)
    ensures forall i :: 0 <= i < |p| ==> p[i].id in InitialAmounts(p) && InitialAmounts(p)[p[i].id] == p[i].amount
    ensures (forall i :: 0 <= i < |p| ==> p[i].amount >= 0) ==> NonNegative(InitialAmounts(p))
  {
    InitialAmountsKeys(p);
    assert forall i :: 0 <= i < |p| ==> LastWithId(p, i);
    if forall i :: 0 <= i < |p| ==> p[i].amount >= 0 {
      var r := InitialAmounts(p);
      forall id | id in r ensures r[id] >= 0 {
        var i :| 0 <= i < |p| && p[i].id == id;
        assert LastWithId(p, i);
      }
    }
  }

  // ----- the figures -----

  /** `totalPortfolioValue`. A number's `parseFloat(toString())` is the number
      itself, and `|| 0` maps 0 to 0, so the price enters unchanged. */
  method TotalPortfolioValue(p: seq<Coin>) returns (total: real)
    ensures total == Value(p)
  {
    total := 0.0;
    var i := 0;
    while i < |p|
      invariant 0 <= i <= |p|
      invariant total == Value(p[..i])
    {
      assert p[..i + 1][..i] == p[..i];
      total := total + p[i].amount as real * p[i].priceUsd;
      i := i + 1;
    }
    assert p[..|p|] == p;
  }

  /** `totalPriceDifference`. It has no guard for a coin without lots; the
      empty inner `reduce` yields 0, which is the header's skip. */
  method TotalPriceDifference(p: seq<Coin>) returns (total: real)
    ensures total == Difference(p)
    ensures Consistent(p) ==> total == Value(p) - InitialValue(p)
  {
    total := 0.0;
    var i := 0;
    while i < |p|
      invariant 0 <= i <= |p|
      invariant total == Difference(p[..i])
    {
      assert p[..i + 1][..i] == p[..i];
      var currentPrice := p[i].priceUsd;
      var ps := p[i].purchases;
      var coinDifference := 0.0;
      var k := 0;
      while k < |ps|
        invariant 0 <= k <= |ps|
        invariant coinDifference == Gain(currentPrice, ps[..k])
      {
        assert ps[..k + 1][..k] == ps[..k];
        coinDifference := coinDifference + (currentPrice - ps[k].priceOnPurchase) * ps[k].amount as real;
        k := k + 1;
      }
      assert ps[..|ps|] == ps;
      total := total + coinDifference;
      i := i + 1;
    }
    assert p[..|p|] == p;
    if Consistent(p) {
      ConsistentDifference(p);
    }
  }

  /** `purchases[0]?.priceOnPurchase || 0`. */
  function FirstLotPrice(c: Coin): real {
    if |c.purchases| > 0 then c.purchases[0].priceOnPurchase else 0.0
  }

  /** The per-coin percent change against the first lot's price; 0 when there
      is no lot or that price is not positive. */
  function CoinPercentChange(c: Coin): (r: real)
    ensures FirstLotPrice(c) <= 0.0 ==> r == 0.0
    ensures |c.purchases| == 0 ==> r == 0.0
    ensures FirstLotPrice(c) > 0.0 ==> r * FirstLotPrice(c) == (c.priceUsd - FirstLotPrice(c)) * 100.0
  {
    var purchasePrice := FirstLotPrice(c);
    if purchasePrice > 0.0 then (c.priceUsd - purchasePrice) / purchasePrice * 100.0 else 0.0
  }

  /** Every lot was bought at the same price. */
  ghost predicate SinglePrice(ps: seq<Purchase>, price: real) {
    forall k :: 0 <= k < |ps| ==> ps[k].priceOnPurchase == price
  }

  lemma {:induction false} SinglePriceCost(ps: seq<Purchase>, price: real)
    requires SinglePrice(ps, price)
    ensures Cost(ps) == price * Units(ps) as real
    decreases |ps|
  {
    if |ps| > 0 {
      var q := ps[|ps| - 1];
      SinglePriceCost(ps[..|ps| - 1], price);
      assert price * (Units(ps[..|ps| - 1]) + q.amount) as real
          == price * Units(ps[..|ps| - 1]) as real + price * q.amount as real;
    }
  }

  /** When every lot was bought at the first lot's price and some unit is
      held, the first-lot percentage is the coin's own gain over its cost. */
  lemma SinglePricePercent(c: Coin)
    requires |c.purchases| > 0 && SinglePrice(c.purchases, FirstLotPrice(c))
    requires Units(c.purchases) > 0
    ensures CoinPercentChange(c) == PositiveBasisPercentage(CoinDifference(c), Cost(c.purchases))
  {
    var pp := FirstLotPrice(c);
    var u := Units(c.purchases) as real;
    SinglePriceCost(c.purchases, pp);
    GainIsMarkedMinusCost(c.priceUsd, c.purchases);
    assert CoinDifference(c) == (c.priceUsd - pp) * u;
    assert Cost(c.purchases) == pp * u;
    if pp > 0.0 {
      var r := CoinPercentChange(c);
      var s := PositiveBasisPercentage(CoinDifference(c), Cost(c.purchases));
      assert s * (pp * u) == (c.priceUsd - pp) * u * 100.0;
      assert (s * pp) * u == (r * pp) * u;
      assert s * pp == r * pp;
    } else if pp < 0.0 {
      assert Cost(c.purchases) < 0.0;
    }
  }
}

=== FILE: seqs.dfy ===
/** The three array pipelines the dashboard is built from: `map`, `filter`,
    and `map(...)` to null followed by `filter(x => x !== null)`, together with
    the order-preserving subsequence relation they produce. */
module Seqs {
  import opened Js

  /** `s.map(g)`. */
  function Map<T, U>(s: seq<T>, g: T -> U): (r: seq<U>)
    ensures |r| == |s|
    ensures forall i :: 0 <= i < |s| ==> r[i] == g(s[i])
  {
    if |s| == 0 then [] else [g(s[0])] + Map(s[1..], g)
  }

  /** `s.filter(keep)`: the passing elements, each as often as it occurs,
      in their original order. */
  function Filter<T>(s: seq<T>, keep: T -> bool): (r: seq<T>)
    ensures |r| <= |s|
    ensures forall i :: 0 <= i < |r| ==> keep(r[i])
    ensures forall i :: 0 <= i < |r| ==> r[i] in s
    ensures forall j :: 0 <= j < |s| && keep(s[j]) ==> s[j] in r
    ensures IsSubsequence(r, s)
    decreases |s|
  {
    if |s| == 0 then []
    else
      var rest := Filter(s[1..], keep);
      assert s == [s[0]] + s[1..];
      if keep(s[0]) then
        var r := [s[0]] + rest;
        assert r[1..] == rest;
        r
      else rest
  }

  /** `s.map(f).filter(x => x !== null)`, where `f` answers None for the
      entries it turns into null. */
  function MapPartial<T, U>(s: seq<T>, f: T -> Option<U>): (r: seq<U>)
    ensures |r| <= |s|
    ensures forall i :: 0 <= i < |r| ==> exists j :: 0 <= j < |s| && f(s[j]) == Some(r[i])
  {
    if |s| == 0 then []
    else
      var rest := MapPartial(s[1..], f);
      assert forall j :: 0 <= j < |s| - 1 ==> s[1..][j] == s[j + 1];
      match f(s[0])
      case Some(y) => [y] + rest
      case None => rest
  }

  /** a is an order-preserving subsequence of b. */
  ghost predicate IsSubsequence<T>(a: seq<T>, b: seq<T>)
    decreases |b|
  {
    |a| == 0 ||
    (|b| > 0 &&
     ((a[0] == b[0] && IsSubsequence(a[1..], b[1..])) || IsSubsequence(a, b[1..])))
  }

  /** Filtering keeps every occurrence of an element that passes the test
      and none of one that fails it. */
  lemma {:induction false} FilterCounts<T>(s: seq<T>, keep: T -> bool, x: T)
    ensures multiset(Filter(s, keep))[x] == if keep(x) then multiset(s)[x] else 0
    decreases |s|
  {
    if |s| > 0 {
      FilterCounts(s[1..], keep, x);
      assert s == [s[0]] + s[1..];
      if keep(s[0]) {
        assert Filter(s, keep) == [s[0]] + Filter(s[1..], keep);
      }
    }
  }

  /** Filtering with a test that holds everywhere keeps the whole sequence. */
  lemma {:induction false} FilterAll<T>(s: seq<T>, keep: T -> bool)
    requires forall i :: 0 <= i < |s| ==> keep(s[i])
    ensures Filter(s, keep) == s
    decreases |s|
  {
    if |s| > 0 {
      assert keep(s[0]);
      FilterAll(s[1..], keep);
    }
  }

  lemma {:induction false} FilterAppend<T>(a: seq<T>, b: seq<T>, keep: T -> bool)
    ensures Filter(a + b, keep) == Filter(a, keep) + Filter(b, keep)
    decreases |a|
  {
    if |a| > 0 {
      assert (a + b)[1..] == a[1..] + b;
      FilterAppend(a[1..], b, keep);
    } else {
      assert a + b == b;
    }
  }

  lemma {:induction false} MapPartialAppend<T, U>(a: seq<T>, b: seq<T>, f: T -> Option<U>)
    ensures MapPartial(a + b, f) == MapPartial(a, f) + MapPartial(b, f)
    decreases |a|
  {
    if |a| > 0 {
      assert (a + b)[1..] == a[1..] + b;
      MapPartialAppend(a[1..], b, f);
    } else {
      assert a + b == b;
    }
  }

  /** The pipeline over a sequence split around one element. */
  lemma MapPartialSplice<T, U>(a: seq<T>, x: T, b: seq<T>, f: T -> Option<U>)
    ensures f(x).Some? ==> MapPartial(a + [x] + b, f) == MapPartial(a, f) + [f(x).value] + MapPartial(b, f)
    ensures f(x).None? ==> MapPartial(a + [x] + b, f) == MapPartial(a, f) + MapPartial(b, f)
  {
    var ax := a + [x];
    MapPartialAppend(ax, b, f);
    MapPartialAppend(a, [x], f);
    MapPartialSingle(x, f);
    if f(x).None? {
      assert MapPartial(ax, f) == MapPartial(a, f) + [];
      assert MapPartial(a, f) + [] == MapPartial(a, f);
    }
  }

  /** The pipeline over a single element. */
  lemma MapPartialSingle<T, U>(x: T, f: T -> Option<U>)
    ensures f(x).Some? ==> MapPartial([x], f) == [f(x).value]
    ensures f(x).None? ==> MapPartial([x], f) == []
  {
    assert [x][1..] == [];
    assert [x][0] == x;
  }

  /** Where f keeps every entry as it is, the pipeline is the identity. */
  lemma {:induction false} MapPartialIdentity<T>(s: seq<T>, f: T -> Option<T>)
    requires forall i :: 0 <= i < |s| ==> f(s[i]) == Some(s[i])
    ensures MapPartial(s, f) == s
    decreases |s|
  {
    if |s| > 0 {
      assert f(s[0]) == Some(s[0]);
      MapPartialIdentity(s[1..], f);
    }
  }

  /** A map g followed by a pipeline f that undoes it restores the sequence. */
  lemma {:induction false} MapPartialUndoesMap<T>(s: seq<T>, g: T -> T, f: T -> Option<T>)
    requires forall i :: 0 <= i < |s| ==> f(g(s[i])) == Some(s[i])
    ensures MapPartial(Map(s, g), f) == s
    decreases |s|
  {
    if |s| > 0 {
      var m := Map(s, g);
      assert m[0] == g(s[0]);
      assert m[1..] == Map(s[1..], g);
      assert f(m[0]) == Some(s[0]);
      MapPartialUndoesMap(s[1..], g, f);
      assert MapPartial(m, f) == [s[0]] + MapPartial(m[1..], f);
      assert s == [s[0]] + s[1..];
    }
  }

  /** Entries the test keeps pass the pipeline unchanged, and entries it drops
      either vanish or come out still dropped: the kept part is untouched. */
  lemma {:induction false} MapPartialKeepsOthers<T>(s: seq<T>, f: T -> Option<T>, keep: T -> bool)
    requires forall i :: 0 <= i < |s| ==> keep(s[i]) ==> f(s[i]) == Some(s[i])
    requires forall i :: 0 <= i < |s| ==> !keep(s[i]) ==> f(s[i]).None? || !keep(f(s[i]).value)
    ensures Filter(MapPartial(s, f), keep) == Filter(s, keep)
    decreases |s|
  {
    if |s| > 0 {
      MapPartialKeepsOthers(s[1..], f, keep);
      match f(s[0])
      case Some(y) =>
        assert MapPartial(s, f) == [y] + MapPartial(s[1..], f);
      case None =>
    }
  }

  /** The same for a plain map. */
  lemma {:induction false} MapKeepsOthers<T>(s: seq<T>, g: T -> T, keep: T -> bool)
    requires forall i :: 0 <= i < |s| ==> keep(s[i]) ==> g(s[i]) == s[i]
    requires forall i :: 0 <= i < |s| ==> !keep(s[i]) ==> !keep(g(s[i]))
    ensures Filter(Map(s, g), keep) == Filter(s, keep)
    decreases |s|
  {
    if |s| > 0 {
      assert Map(s, g) == [g(s[0])] + Map(s[1..], g);
      MapKeepsOthers(s[1..], g, keep);
    }
  }

  lemma {:induction false} SubsequenceTransitive<T>(a: seq<T>, b: seq<T>, c: seq<T>)
    requires IsSubsequence(a, b) && IsSubsequence(b, c)
    ensures IsSubsequence(a, c)
    decreases |c|
  {
    if |a| > 0 {
      assert |b| > 0 && |c| > 0;
      if b[0] == c[0] && IsSubsequence(b[1..], c[1..]) {
        if a[0] == b[0] && IsSubsequence(a[1..], b[1..]) {
          SubsequenceTransitive(a[1..], b[1..], c[1..]);
        } else {
          SubsequenceTransitive(a, b[1..], c[1..]);
        }
      } else {
        SubsequenceTransitive(a, b, c[1..]);
      }
    }
  }

  /** Every contiguous block of a sequence is a subsequence of it. */
  lemma {:induction false} WindowIsSubsequence<T>(s: seq<T>, k: nat, len: nat)
    requires k + len <= |s|
    ensures IsSubsequence(s[k..k + len], s)
    decreases |s|
  {
    if len > 0 {
      if k == 0 {
        assert s[k..k + len][1..] == s[1..][0..len - 1];
        WindowIsSubsequence(s[1..], 0, len - 1);
      } else {
        var w, v := s[k..k + len], s[1..][k - 1..k - 1 + len];
        assert forall i :: 0 <= i < len ==> w[i] == v[i];
        assert w == v;
        WindowIsSubsequence(s[1..], k - 1, len);
      }
    }
  }

  lemma SliceIsSubsequence<T>(s: seq<T>, start: int, end: int)
    ensures IsSubsequence(Slice(s, start, end), s)
  {
    var r := Slice(s, start, end);
    var k :| WindowAt(s, r, k);
    WindowIsSubsequence(s, k, |r|);
  }

  /** Mapping a function that does not change what the filter looks at
      commutes with the filter. */
  lemma {:induction false} FilterMapCommute<T>(s: seq<T>, g: T -> T, keep: T -> bool)
    requires forall i :: 0 <= i < |s| ==> keep(g(s[i])) == keep(s[i])
    ensures Filter(Map(s, g), keep) == Map(Filter(s, keep), g)
    decreases |s|
  {
    if |s| > 0 {
      assert Map(s, g) == [g(s[0])] + Map(s[1..], g);
      assert Map(s, g)[1..] == Map(s[1..], g);
      FilterMapCommute(s[1..], g, keep);
    }
  }

  /** `slice` and `map` commute. */
  lemma SliceMap<T, U>(s: seq<T>, g: T -> U, start: int, end: int)
    ensures Slice(Map(s, g), start, end) == Map(Slice(s, start, end), g)
  {
    var from, to := SliceIndex(start, |s|), SliceIndex(end, |s|);
    if from < to {
      assert Slice(Map(s, g), start, end) == Map(s, g)[from..to];
      assert Slice(s, start, end) == s[from..to];
    }
  }

  /** Filtering by a weaker test keeps everything a stronger test keeps, in
      the same order. */
  lemma {:induction false} FilterWeaker<T>(s: seq<T>, strong: T -> bool, weak: T -> bool)
    requires forall i :: 0 <= i < |s| ==> strong(s[i]) ==> weak(s[i])
    ensures IsSubsequence(Filter(s, strong), Filter(s, weak))
    decreases |s|
  {
    if |s| > 0 {
      FilterWeaker(s[1..], strong, weak);
      var a, b := Filter(s, strong), Filter(s, weak);
      if strong(s[0]) {
        assert a[0] == b[0] && a[1..] == Filter(s[1..], strong) && b[1..] == Filter(s[1..], weak);
      } else if weak(s[0]) {
        assert b[1..] == Filter(s[1..], weak);
        SubsequenceDropHead(a, b);
      }
    }
  }

  /** A subsequence of the tail of b is a subsequence of b. */
  lemma SubsequenceDropHead<T>(a: seq<T>, b: seq<T>)
    requires |b| > 0 && IsSubsequence(a, b[1..])
    ensures IsSubsequence(a, b)
  {
  }

  /** A sequence is its prefix, the element at k, and the rest. */
  lemma SplitAt<T>(s: seq<T>, k: nat)
    requires k < |s|
    ensures s[..k] + [s[k]] + s[k + 1..] == s
  {
  }
}

=== FILE: sorting.dfy ===
/** `Array.prototype.sort` with a comparator of the shape `rank(a) - rank(b)`.
    The engine's sort is stable, so it is modelled as a stable insertion sort:
    an element is placed before the first later-ranked or equally ranked one
    it meets, which keeps equally ranked elements in their input order. */
module Sorting {

  /** Ranks never decrease from left to right. */
  ghost predicate SortedBy<T>(s: seq<T>, rank: T -> real) {
    forall i, j :: 0 <= i < j < |s| ==> rank(s[i]) <= rank(s[j])
  }

  /** Inserts x into s in front of the first element ranked at least as high. */
  function Insert<T>(x: T, s: seq<T>, rank: T -> real): (r: seq<T>)
    ensures multiset(r) == multiset(s) + multiset{x}
    ensures |r| == |s| + 1
    ensures SortedBy(s, rank) ==> SortedBy(r, rank)
  {
    if |s| == 0 then [x]
    else if rank(x) <= rank(s[0]) then
      ConsSorted(x, s, rank);
      [x] + s
    else
      var rest := Insert(x, s[1..], rank);
      assert s == [s[0]] + s[1..];
      RestRankedAbove(x, s, rest, rank);
      ConsSorted(s[0], rest, rank);
      [s[0]] + rest
  }

  /** Putting an element ranked no higher than the head in front of a sorted
      sequence keeps it sorted. */
  lemma ConsSorted<T>(y: T, t: seq<T>, rank: T -> real)
    ensures SortedBy(t, rank) && (|t| > 0 ==> rank(y) <= rank(t[0])) ==> SortedBy([y] + t, rank)
  {
    if SortedBy(t, rank) && (|t| > 0 ==> rank(y) <= rank(t[0])) {
      forall i, j | 0 <= i < j < |[y] + t| ensures rank(([y] + t)[i]) <= rank(([y] + t)[j]) {
        if i > 0 {
          assert ([y] + t)[i] == t[i - 1];
        }
      }
    }
  }

  /** When x goes behind the head of a sorted s, whatever it is inserted into
      the tail is ranked at least as high as that head. */
  lemma RestRankedAbove<T>(x: T, s: seq<T>, rest: seq<T>, rank: T -> real)
    requires |s| > 0 && rank(s[0]) < rank(x)
    requires multiset(rest) == multiset(s[1..]) + multiset{x}
    ensures SortedBy(s, rank) && |rest| > 0 ==> rank(s[0]) <= rank(rest[0])
  {
    if SortedBy(s, rank) && |rest| > 0 {
      assert rest[0] in multiset(rest);
      if rest[0] != x {
        assert rest[0] in multiset(s[1..]);
        var k :| 0 <= k < |s[1..]| && s[1..][k] == rest[0];
        assert s[k + 1] == rest[0];
      }
    }
  }

  /** The sorted copy `[...s].sort(comparator)`. */
  function Sort<T>(s: seq<T>, rank: T -> real): (r: seq<T>)
    ensures multiset(r) == multiset(s)
    ensures |r| == |s|
    ensures SortedBy(r, rank)
  {
    if |s| == 0 then []
    else
      assert s == [s[0]] + s[1..];
      Insert(s[0], Sort(s[1..], rank), rank)
  }

  /** With a comparator that always answers 0 the stable sort leaves the order
      as it was. */
  lemma {:induction false} ConstantRankKeepsOrder<T>(s: seq<T>, rank: T -> real)
    requires forall i :: 0 <= i < |s| ==> rank(s[i]) == 0.0
    ensures Sort(s, rank) == s
    decreases |s|
  {
    if |s| > 0 {
      ConstantRankKeepsOrder(s[1..], rank);
      var t := s[1..];
      if |t| > 0 {
        assert rank(t[0]) == 0.0;
      }
    }
  }

  /** A sequence already in rank order is its own sorted copy, so sorting
      twice is sorting once. */
  lemma {:induction false} SortedIsFixed<T>(s: seq<T>, rank: T -> real)
    requires SortedBy(s, rank)
    ensures Sort(s, rank) == s
    decreases |s|
  {
    if |s| > 0 {
      assert SortedBy(s[1..], rank);
      SortedIsFixed(s[1..], rank);
      if |s| > 1 {
        assert rank(s[0]) <= rank(s[1..][0]);
      }
    }
  }
}

=== FILE: websocket_manager.dfy ===
/** The shared price-feed connection manager. It owns at most one socket,
    a list of registered message handlers, and a counter of reconnection
    attempts bounded by `MaxReconnectAttempts`. The socket's open, close,
    error and message events and the firing of a scheduled reconnect timer
    are inputs; the manager is the transition system they drive. Events are
    read as coming from the socket the manager currently holds. */
module WebSocketManager {
  import opened Js
  import opened Seqs

  /** The reconnect bound. The 10-second delay before a scheduled reconnect
      is not modelled: a scheduled connect is a pending timer. */
  const MaxReconnectAttempts: nat := 5

  /** The identity of a registered callback; `!==` compares these. */
  type Handler = nat

  /** A price tick: asset id to the price as sent, a decimal string. */
  type Prices = map<string, string>

  /** `readyState` of the socket held: still connecting, or open. */
  datatype ReadyState = Connecting | Open

  datatype Manager = Manager(
    ws: Option<ReadyState>,
    handlers: seq<Handler>,
    reconnectAttempts: nat,
    pendingTimers: nat)   // `setTimeout(connect)` calls scheduled and not yet fired

  /** What can happen to the manager: calls made by the views, and events from
      the socket and the timer. A message carries the outcome of `JSON.parse`,
      None when the payload does not parse. */
  datatype Input =
    | CallConnect
    | CallDisconnect
    | CallAdd(h: Handler)
    | CallRemove(h: Handler)
    | Opened
    | Closed
    | Errored
    | Message(data: Option<Prices>)
    | TimerFired

  /** The manager as constructed: no socket, no handlers, no attempts. */
  const Initial: Manager := Manager(None, [], 0, 0)

  ghost predicate Valid(m: Manager) {
    m.reconnectAttempts <= MaxReconnectAttempts
  }

  /** `connect()`: does nothing while a socket exists, otherwise opens one. */
  function Connect(m: Manager): (r: Manager)
    ensures r.ws.Some?
    ensures m.ws.Some? ==> r == m
    ensures m.ws.None? ==> r.ws == Some(Connecting)
    ensures r.handlers == m.handlers && r.reconnectAttempts == m.reconnectAttempts
    ensures r.pendingTimers == m.pendingTimers
  {
    if m.ws.Some? then m else m.(ws := Some(Connecting))
  }

  /** `reconnect()`: schedules one more connect while below the bound, and
      gives up at the bound. */
  function Reconnect(m: Manager): (r: Manager)
    requires Valid(m)
    ensures Valid(r)
    ensures m.reconnectAttempts < MaxReconnectAttempts ==>
      r.reconnectAttempts == m.reconnectAttempts + 1 && r.pendingTimers == m.pendingTimers + 1
    ensures m.reconnectAttempts == MaxReconnectAttempts ==> r == m
    ensures r.ws == m.ws && r.handlers == m.handlers
  {
    if m.reconnectAttempts < MaxReconnectAttempts then
      m.(reconnectAttempts := m.reconnectAttempts + 1, pendingTimers := m.pendingTimers + 1)
    else
      m
  }

  /** `disconnect()`: closes and forgets the socket. Its close event arrives
      later as an input of its own. */
  function Disconnect(m: Manager): (r: Manager)
    ensures r.ws.None?
    ensures !IsConnected(r)
    ensures r.handlers == m.handlers && r.reconnectAttempts == m.reconnectAttempts
    ensures r.pendingTimers == m.pendingTimers
  {
    if m.ws.Some? then m.(ws := None) else m
  }

  /** `isConnected()`: a socket is held and it is open. */
  predicate IsConnected(m: Manager) {
    m.ws == Some(Open)
  }

  /** `addMessageHandler(h)`: appends, keeping duplicates. */
  function AddMessageHandler(m: Manager, h: Handler): (r: Manager)
    ensures |r.handlers| == |m.handlers| + 1
    ensures r.handlers[..|m.handlers|] == m.handlers && r.handlers[|m.handlers|] == h
    ensures r.ws == m.ws && r.reconnectAttempts == m.reconnectAttempts
    ensures r.pendingTimers == m.pendingTimers
  {
    m.(handlers := m.handlers + [h])
  }

  /** The test `h2 => h2 !== h`. */
  function Except(h: Handler): Handler -> bool {
    (h2: Handler) => h2 != h
  }

  /** `removeMessageHandler(h)`: drops every registration of h and keeps the
      others in order. */
  function RemoveMessageHandler(m: Manager, h: Handler): (r: Manager)
    ensures h !in r.handlers
    ensures forall i :: 0 <= i < |m.handlers| && m.handlers[i] != h ==> m.handlers[i] in r.handlers
    ensures forall i :: 0 <= i < |r.handlers| ==> r.handlers[i] in m.handlers
    ensures IsSubsequence(r.handlers, m.handlers)
    ensures forall x :: x != h ==> multiset(r.handlers)[x] == multiset(m.handlers)[x]
    ensures h !in m.handlers ==> r == m
    ensures r.ws == m.ws && r.reconnectAttempts == m.reconnectAttempts
    ensures r.pendingTimers == m.pendingTimers
  {
    NothingToRemove(m.handlers, h);
    OthersKeepCounts(m.handlers, h);
    m.(handlers := Filter(m.handlers, Except(h)))
  }

  /** Removing h leaves every other handler registered as often as before. */
  lemma OthersKeepCounts(hs: seq<Handler>, h: Handler)
    ensures forall x :: x != h ==> multiset(Filter(hs, Except(h)))[x] == multiset(hs)[x]
  {
    forall x | x != h
      ensures multiset(Filter(hs, Except(h)))[x] == multiset(hs)[x]
    {
      FilterCounts(hs, Except(h), x);
    }
  }

  lemma NothingToRemove(hs: seq<Handler>, h: Handler)
    ensures h !in hs ==> Filter(hs, Except(h)) == hs
  {
    if h !in hs {
      FilterAll(hs, Except(h));
    }
  }

  /** The deliveries a message causes: each registered entry, in registration
      order, receives the parsed tick; a payload that does not parse reaches
      no handler. */
  function Dispatch(m: Manager, data: Option<Prices>): (r: seq<(Handler, Prices)>)
    ensures data.None? ==> r == []
    ensures data.Some? ==> |r| == |m.handlers|
    ensures data.Some? ==> forall i :: 0 <= i < |r| ==> r[i] == (m.handlers[i], data.value)
  {
    match data
    case None => []
    case Some(d) => seq(|m.handlers|, i requires 0 <= i < |m.handlers| => (m.handlers[i], d))
  }

  /** Number of deliveries of one message to handler h. */
  function DeliveriesTo(ds: seq<(Handler, Prices)>, h: Handler): nat {
    if |ds| == 0 then 0
    else DeliveriesTo(ds[..|ds| - 1], h) + (if ds[|ds| - 1].0 == h then 1 else 0)
  }

  /** One transition of the manager. */
  function Step(m: Manager, input: Input): (r: Manager)
    requires Valid(m)
    ensures Valid(r)
    ensures input == Opened ==> r.reconnectAttempts == 0
    ensures input == Opened ==> (IsConnected(r) <==> m.ws.Some?)
    ensures input == Opened ==> r.handlers == m.handlers && r.pendingTimers == m.pendingTimers
    ensures input == Closed ==> r.ws.None? && r.handlers == m.handlers
    ensures input == Closed && m.reconnectAttempts < MaxReconnectAttempts ==>
      r.reconnectAttempts == m.reconnectAttempts + 1 && r.pendingTimers == m.pendingTimers + 1
    ensures input == Closed && m.reconnectAttempts == MaxReconnectAttempts ==>
      r.reconnectAttempts == m.reconnectAttempts && r.pendingTimers == m.pendingTimers
    ensures input == TimerFired && m.pendingTimers > 0 ==>
      r.ws.Some? && r.pendingTimers == m.pendingTimers - 1 && r.reconnectAttempts == m.reconnectAttempts
    ensures input == TimerFired && m.pendingTimers == 0 ==> r == m
    ensures input == TimerFired ==> r.handlers == m.handlers
    ensures input.Message? || input == Errored ==> r == m
    ensures input == CallConnect ==>
      r.ws.Some? && r.handlers == m.handlers && r.reconnectAttempts == m.reconnectAttempts &&
      r.pendingTimers == m.pendingTimers
    ensures input == CallDisconnect ==>
      r.ws.None? && r.handlers == m.handlers && r.reconnectAttempts == m.reconnectAttempts &&
      r.pendingTimers == m.pendingTimers
    ensures input.CallAdd? ==>
      r.handlers == m.handlers + [input.h] && r.ws == m.ws &&
      r.reconnectAttempts == m.reconnectAttempts && r.pendingTimers == m.pendingTimers
    ensures input.CallRemove? ==>
      input.h !in r.handlers && IsSubsequence(r.handlers, m.handlers) && r.ws == m.ws &&
      r.reconnectAttempts == m.reconnectAttempts && r.pendingTimers == m.pendingTimers
    ensures !input.CallAdd? && !input.CallRemove? ==> r.handlers == m.handlers
  {
    match input
    case CallConnect => Connect(m)
    case CallDisconnect => Disconnect(m)
    case CallAdd(h) => AddMessageHandler(m, h)
    case CallRemove(h) => RemoveMessageHandler(m, h)
    case Opened =>
      m.(reconnectAttempts := 0, ws := if m.ws.Some? then Some(Open) else None)
    case Closed => Reconnect(m.(ws := None))
    case Errored => m
    case Message(_) => m
    case TimerFired =>
      if m.pendingTimers == 0 then m else Connect(m.(pendingTimers := m.pendingTimers - 1))
  }

  /** A sequence of inputs applied in order. */
  function Run(m: Manager, inputs: seq<Input>): (r: Manager)
    requires Valid(m)
    ensures Valid(r)
    decreases |inputs|
  {
    if |inputs| == 0 then m else Run(Step(m, inputs[0]), inputs[1..])
  }

  /** The handler list belongs to the manager, not to the socket: no drop,
      reconnect, open, error or message changes it, only the views' own
      add and remove calls do. */
  lemma {:induction false} HandlersSurviveReconnects(m: Manager, inputs: seq<Input>)
    requires Valid(m)
    requires forall i :: 0 <= i < |inputs| ==> !inputs[i].CallAdd? && !inputs[i].CallRemove?
    ensures Run(m, inputs).handlers == m.handlers
    decreases |inputs|
  {
    if |inputs| > 0 {
      HandlersSurviveReconnects(Step(m, inputs[0]), inputs[1..]);
    }
  }

  /** `connect` is idempotent. */
  lemma ConnectIdempotent(m: Manager)
    ensures Connect(Connect(m)) == Connect(m)
  {
  }

  /** Removing twice is removing once. */
  lemma RemoveIdempotent(m: Manager, h: Handler)
    ensures RemoveMessageHandler(RemoveMessageHandler(m, h), h) == RemoveMessageHandler(m, h)
  {
  }

  /** A close event behaves the same whether it follows an explicit
      `disconnect` or a dropped connection: either way a reconnect is
      scheduled while attempts remain, and none once they are used up. */
  lemma CloseAlwaysReconnects(m: Manager)
    requires Valid(m)
    ensures var afterDrop := Step(m, Closed);
            var afterDisconnect := Step(Step(m, CallDisconnect), Closed);
            afterDrop == afterDisconnect &&
            (m.reconnectAttempts < MaxReconnectAttempts ==> afterDrop.pendingTimers == m.pendingTimers + 1) &&
            (m.reconnectAttempts == MaxReconnectAttempts ==> afterDrop.pendingTimers == m.pendingTimers)
  {
  }

  /** Without an open event, every timer ever scheduled was paid for by one
      attempt: at most `MaxReconnectAttempts - reconnectAttempts` reconnects
      are scheduled in all. */
  lemma {:induction false} ReconnectsBoundedWithoutOpen(m: Manager, inputs: seq<Input>)
    requires Valid(m)
    requires forall i :: 0 <= i < |inputs| ==> inputs[i] != Opened
    ensures Run(m, inputs).reconnectAttempts >= m.reconnectAttempts
    ensures Run(m, inputs).pendingTimers <= m.pendingTimers + (Run(m, inputs).reconnectAttempts - m.reconnectAttempts)
    ensures Run(m, inputs).pendingTimers <= m.pendingTimers + MaxReconnectAttempts - m.reconnectAttempts
    decreases |inputs|
  {
    if |inputs| > 0 {
      var m' := Step(m, inputs[0]);
      assert m'.reconnectAttempts >= m.reconnectAttempts;
      assert m'.pendingTimers <= m.pendingTimers + (m'.reconnectAttempts - m.reconnectAttempts);
      ReconnectsBoundedWithoutOpen(m', inputs[1..]);
    }
  }

  /** A view's effect: connect and register its handler on mount. */
  function Subscribe(m: Manager, h: Handler): (r: Manager)
    ensures r.ws.Some?
    ensures h in r.handlers
    ensures r.reconnectAttempts == m.reconnectAttempts
  {
    AddMessageHandler(Connect(m), h)
  }

  /** The effect's cleanup: unregister the handler (the socket stays). */
  function Unsubscribe(m: Manager, h: Handler): (r: Manager)
    ensures h !in r.handlers
    ensures r.ws == m.ws
  {
    RemoveMessageHandler(m, h)
  }

  /** Mounting with a fresh handler and then cleaning up leaves the handler
      list exactly as it was. */
  lemma SubscribeThenUnsubscribe(m: Manager, h: Handler)
    requires h !in m.handlers
    ensures Unsubscribe(Subscribe(m, h), h).handlers == m.handlers
  {
    var hs := Connect(m).handlers;
    FilterAppend(hs, [h], Except(h));
    FilterAll(hs, Except(h));
  }

  /** While mounted, a fresh handler receives every parsed tick exactly once. */
  lemma {:induction false} SubscribedHandlerReceivesOnce(m: Manager, h: Handler, d: Prices)
    requires h !in m.handlers
    ensures DeliveriesTo(Dispatch(Subscribe(m, h), Some(d)), h) == 1
  {
    var ds := Dispatch(Subscribe(m, h), Some(d));
    var n := |m.handlers|;
    assert ds[..n] == Dispatch(m, Some(d));
    NoDeliveriesToAbsent(m, h, d);
  }

  lemma {:induction false} NoDeliveriesToAbsent(m: Manager, h: Handler, d: Prices)
    requires h !in m.handlers
    ensures DeliveriesTo(Dispatch(m, Some(d)), h) == 0
    decreases |m.handlers|
  {
    if |m.handlers| > 0 {
      var m' := m.(handlers := m.handlers[..|m.handlers| - 1]);
      assert Dispatch(m, Some(d))[..|m.handlers| - 1] == Dispatch(m', Some(d));
      NoDeliveriesToAbsent(m', h, d);
    }
  }
}
